=== FILE: README.md ===
# School helper: chunked document chat and quiz parsing, in Dafny

This project models two pieces of the school helper web application and
proves properties about them.

**Chunked document chat** (`processContentInChunks`, the document-chat API
route). A transcription of fewer than 8000 characters goes to the
text-generation backend in a single call. A longer one is handled in three steps:

1. It is cut into chunks of about 8000 characters. Each cut moves back to a
   paragraph break, a line break or a sentence end when one lies close
   enough before the hard cut.
2. Each chunk is sent with its own "PART i of n" prompt. The prompt is a
   summary prompt if the user's message mentions "summarize", and a
   question prompt otherwise. A chunk call that throws leaves an
   `[Error processing part i]` marker, and the remaining chunks are still
   processed.
3. A last, meta-processing call merges the labelled part results. If that
   call throws, the part results joined by `---` lines are returned instead.

Modules:

- `Splitter` is the cutting loop.
- `ChunkPipeline` is the whole function.
- The backend (`processWithClaude`) is a parameter `backend(n, call)`: its reply to
  the `n`-th call of the request. It either succeeds with a text or throws.

**Quiz parsing** (the quiz tab). The assistant's reply becomes a quiz list in
one of three ways, tried in this order:

1. The reply is a non-empty JSON array. It is used as it is. An empty array
   counts as unread and falls through to the next step.
2. A JSON array found inside the reply is cleaned, and only the entries that
   have a string `question`, an array `options` and a string `answer` are kept.
3. Failing both, the reply is cut into blocks, and `parseQuestionBlocks`
   turns each block into a question with:
   - a question line;
   - at least four options, padded with "Option n";
   - an answer resolved from a letter or a text;
   - an optional explanation.

   A block is dropped when its question comes out as the text
   "Question not found". That happens when the block has no non-blank
   line, and also when its first non-blank line reads exactly
   "Question not found".

A reply that none of these can read is meant to be fetched again while the
retry count is below `MAX_RETRIES` (3), with the parse error reported after
that. `QuizResponse.FetchQuizzes` models that intended loop: at most four
requests. As written, the component does not stop there (see "Findings").
`StaleRetry` models the retry as the component schedules it.

Modules:

- `Quiz` is the block parser.
- `QuizResponse` holds the three readings, the request checks and the
  intended retry loop.
- `StaleRetry` holds the retry as written: the effect re-runs and the timers
  that re-run old closures.
- `Text` models the JavaScript string operations involved:
  - `lastIndexOf` and `includes`;
  - ASCII `toLowerCase`;
  - `trim`, with the ECMAScript whitespace set;
  - `split` on one character, and `join`;
  - the decimal rendering of integers;
  - `map` and `filter`.

Three facts about the code shape the contracts:

- **Chunk size.** A chunk can have 8001 characters, not just 8000. This
  happens when `lastIndexOf('. ', endIndex)` finds a ". " that starts
  exactly at the hard cut, because the cut is then placed one character past
  it. `Splitter.OversizeChunk` states exactly when this happens. So the
  number of chunks of a text of L characters is only bounded below by
  L/8001, not by ⌈L/8000⌉. The last chunk is never longer than 8000.
- **Summary or question mode.** The mode is not passed in. It is read off
  the message: summary mode exactly when "summarize" occurs in it, in any
  case.
- **Short content.** Only the long path always answers. On the short path
  a backend failure propagates to the caller.

## Model

| member | source | states |
|---|---|---|
| Text.LastIndexOf | school_helper/app/api/document-chat/route.ts:27 | `lastIndexOf(pat, pos)` is the last index at or before `pos` where `pat` occurs, or -1 when there is none |
| Text.Contains | school_helper/app/api/document-chat/route.ts:52 | `includes` holds exactly when the pattern occurs somewhere |
| Text.Trim | school_helper/components/AIQuizzes.tsx:209 | `trim()` is empty exactly for all-whitespace text; otherwise it is the occurrence of the text inside the input that has only whitespace around it and no whitespace at either end |
| Text.SplitOn | school_helper/components/AIQuizzes.tsx:209 | `split('\n')` yields at least one piece; joining the pieces with the separator gives back the input; no piece contains the separator |
| Text.ParseNatToString | school_helper/app/api/document-chat/route.ts:60 | the decimal rendering of a part number reads back as that number, so different part numbers give different tags |
| Text.SplitWithoutSeparator | school_helper/components/AIQuizzes.tsx:209 | text without a line break splits into itself alone |
| Text.TrimOfTrimmed | school_helper/components/AIQuizzes.tsx:209 | text that neither starts nor ends with whitespace is its own `trim()` |
| Text.FilterAppend | school_helper/components/AIQuizzes.tsx:129-134 | `filter` distributes over concatenation: the kept items stay in their original relative order |
| Text.Filter | school_helper/components/AIQuizzes.tsx:157 | `filter` keeps only items that pass the test, never more than it was given; it keeps something exactly when some item passes, and the first item kept is the first that passes |
| Splitter.HardCut | school_helper/app/api/document-chat/route.ts:22 | the window ends 8000 characters after the start, or at the end of the text if that comes first: it is one of the two, and never beyond either |
| Splitter.BreakPoint | school_helper/app/api/document-chat/route.ts:21-43 | a chunk ends strictly after its start and at most 8001 characters later; it ends at the end of the text exactly when at most 8000 characters remain; a chunk of 8001 characters ends just after a ". " period |
| Splitter.BreakPointPriority | school_helper/app/api/document-chat/route.ts:24-43 | the cut is, in priority order: the last paragraph break within 500 characters before the hard cut, else the last line break within 200, else one past the last ". " within 100, else the hard cut; no candidate may be at or before the start |
| Splitter.OversizeChunk | school_helper/app/api/document-chat/route.ts:37-39 | a chunk has 8001 characters exactly when a ". " starts at the hard cut and no paragraph or line break lies within reach before it |
| Splitter.SplitFrom | school_helper/app/api/document-chat/route.ts:21-47 | the chunks concatenate to the rest of the text; each is non-empty and at most 8001 characters; the last is at most 8000; there are more than L/8001 of them; there are none exactly when nothing remains |
| Splitter.ChunksAreLossless | school_helper/app/api/document-chat/route.ts:45-46 | the chunks, concatenated, give back the whole content |
| Splitter.ShortTextIsOneChunk | school_helper/app/api/document-chat/route.ts:21-22 | non-empty text of at most 8000 characters is a single chunk |
| Splitter.SplitContent | school_helper/app/api/document-chat/route.ts:17-47 | the splitting loop as written produces exactly the reference chunks: lossless, each non-empty and at most 8001 characters |
| ChunkPipeline.IsInitialSummary | school_helper/app/api/document-chat/route.ts:52 | summary mode holds exactly when "summarize" occurs in the lower-cased message |
| ChunkPipeline.SummaryRequestIgnoresCase | school_helper/app/api/document-chat/route.ts:52 | summary mode holds exactly when the message contains, at some position, the nine letters of "summarize" with each letter in either case ("SumMARize" counts) |
| ChunkPipeline.MixedCaseAtLowered | school_helper/app/api/document-chat/route.ts:52 | at a given position, the lower-cased message reads "summarize" exactly when the message there holds each letter of "summarize" in lower or upper case |
| ChunkPipeline.ChunkPrompt | school_helper/app/api/document-chat/route.ts:58-63 | both prompt kinds name the chunk as "PART i+1 of n" at a fixed offset; the question prompt ends with the user's message verbatim |
| ChunkPipeline.SummaryPromptIgnoresMessage | school_helper/app/api/document-chat/route.ts:59-60 | in summary mode the chunk prompt does not depend on the user's message |
| ChunkPipeline.ChunkCalls | school_helper/app/api/document-chat/route.ts:55-66 | one call per chunk, in chunk order: call k sends chunk k, with the document name, not as meta-processing, under a prompt naming it "PART k+1 of n" |
| ChunkPipeline.ChunkResults | school_helper/app/api/document-chat/route.ts:65-72 | each chunk contributes exactly one result, in chunk order: its own call's reply text, or `[Error processing part k+1]` when that call threw; a failure changes no other chunk's result |
| ChunkPipeline.CombineHeader | school_helper/app/api/document-chat/route.ts:79-98 | the merge instruction opens with "You received the following n", n the number of parts; in summary mode the fixed " summaries of different parts of a transcription." instruction follows; in question mode the user's message follows, verbatim, after ` answers to the question "` |
| ChunkPipeline.CombinePrompt | school_helper/app/api/document-chat/route.ts:79-98 | the merge instruction starts with its header naming the number of parts |
| ChunkPipeline.Pipeline | school_helper/app/api/document-chat/route.ts:7-108 | short content makes exactly one call, with the original message as prompt; long content always yields a text, after one call per chunk and one more |
| ChunkPipeline.Fallback | school_helper/app/api/document-chat/route.ts:86-90 | the assembled fallback is never empty, and it starts with "COMBINED SUMMARY (automatically assembled, not unified due to error):" and a blank line in summary mode, "COMBINED ANSWER (…)" with the same wording in question mode (line 105) |
| ChunkPipeline.ShortContentIsDirect | school_helper/app/api/document-chat/route.ts:10-13 | content under 8000 characters makes one call with the original message, and that call's reply, success or failure, is the result |
| ChunkPipeline.LongContentCalls | school_helper/app/api/document-chat/route.ts:15-85 | long content makes one call per chunk and then one combining call; the chunk calls carry the whole content in order and are not meta-processing; the combining call has empty content and is meta-processing |
| ChunkPipeline.LongContentAlwaysAnswers | school_helper/app/api/document-chat/route.ts:84-106 | long content always yields a text: the combining call's reply, or the fallback over the part results when that call threw; the text is non-empty if the backend never answers with empty text |
| ChunkPipeline.CombinePromptListsParts | school_helper/app/api/document-chat/route.ts:79-82 | the merge instruction contains every part result after its label, at the position the blank-line join gives it |
| ChunkPipeline.CombinePromptSeparatesParts | school_helper/app/api/document-chat/route.ts:95-98 | consecutive labelled parts in the merge instruction are separated by exactly one blank line |
| ChunkPipeline.CombinePromptEndsWithLastPart | school_helper/app/api/document-chat/route.ts:95-98 | the merge instruction ends right after the last labelled part |
| ChunkPipeline.CombinePromptQuotesQuestion | school_helper/app/api/document-chat/route.ts:95 | in question mode the merge instruction quotes the user's question verbatim |
| ChunkPipeline.FallbackListsParts | school_helper/app/api/document-chat/route.ts:88-89 | the fallback keeps every part result, in order, after its fixed prefix |
| ChunkPipeline.FallbackSeparatesParts | school_helper/app/api/document-chat/route.ts:104-105 | consecutive part results in the fallback are separated by a `---` line |
| ChunkPipeline.FallbackEndsWithLastPart | school_helper/app/api/document-chat/route.ts:104-105 | the fallback ends right after the last part result |
| ChunkPipeline.ProcessChunks | school_helper/app/api/document-chat/route.ts:55-73 | the chunk loop as written makes the calls `ChunkCalls` describes and collects the results `ChunkResults` describes |
| Quiz.QuestionOf | school_helper/components/AIQuizzes.tsx:209-218 | the question is the first non-blank line, trimmed, or "Question not found" when every line is blank; it is never empty |
| Quiz.PatternOptions | school_helper/components/AIQuizzes.tsx:230-240 | the pattern loop finds no options exactly when no option pattern matches |
| Quiz.PatternOptionsFirstMatch | school_helper/components/AIQuizzes.tsx:230-240 | the options are the trimmed captures of the first option pattern that matches at all |
| Quiz.LineOptions | school_helper/components/AIQuizzes.tsx:243-252 | the per-line fallback gives at most one option per line |
| Quiz.LineOptionsAppend | school_helper/components/AIQuizzes.tsx:243-252 | lines are read independently, and their options are kept in line order |
| Quiz.LineOptionsSingle | school_helper/components/AIQuizzes.tsx:246-250 | a line gives an option exactly when its trimmed text matches the line pattern; the option is the trimmed capture |
| Quiz.ExtractOptions | school_helper/components/AIQuizzes.tsx:230-252 | when some option pattern matches, the options are the pattern options, and there is at least one; when none does, they come from the lines after the first |
| Quiz.PadOptions | school_helper/components/AIQuizzes.tsx:254-257 | padding keeps the found options as they are, brings the count up to four, and fills slot k with "Option k+1" |
| Quiz.LetterIndex | school_helper/components/AIQuizzes.tsx:274-275 | an answer letter, A to D in either case, names one of the first four options: index i for the i-th letter of "ABCD" or of "abcd" |
| Quiz.MatchAnswer | school_helper/components/AIQuizzes.tsx:260-286 | with no matching answer pattern the answer is ""; any answer is "", one of the options, or the trimmed capture of some answer pattern |
| Quiz.MatchAnswerFirstResolving | school_helper/components/AIQuizzes.tsx:270-286 | the answer comes from the first capture that resolves: a letter naming an existing option gives that option, a non-letter gives its trimmed text; "" when none resolves |
| Quiz.PaddedOptionsResolveEveryCapture | school_helper/components/AIQuizzes.tsx:276 | once there are four options every capture resolves, so the range check never sends the search on |
| Quiz.ResolveAnswer | school_helper/components/AIQuizzes.tsx:288-291 | an empty answer falls back to the first option, and a found answer is kept |
| Quiz.ExplanationOf | school_helper/components/AIQuizzes.tsx:301-307 | there is no explanation exactly when no explanation pattern matches |
| Quiz.ExplanationFirstMatch | school_helper/components/AIQuizzes.tsx:301-307 | the explanation is the trimmed capture of the first explanation pattern that matches, and there is none when no pattern matches |
| Quiz.NormaliseBlock | school_helper/components/AIQuizzes.tsx:207-309 | every normalised block has a non-empty question and at least four options, and its answer is empty only when the first option is |
| Quiz.KeepAll | school_helper/components/AIQuizzes.tsx:310 | the final filter keeps only quizzes that have a question and options, and each one it keeps comes from its input |
| Quiz.KeepAllAppend | school_helper/components/AIQuizzes.tsx:310 | the final filter distributes over concatenation, so kept quizzes stay in block order |
| Quiz.ParseQuestionBlocks | school_helper/components/AIQuizzes.tsx:206-311 | there are no more quizzes than blocks, and every quiz has a real question and at least four options |
| Quiz.ParseQuestionBlocksAppend | school_helper/components/AIQuizzes.tsx:207-310 | blocks are parsed independently and kept in block order |
| Quiz.ParseQuestionBlocksSingle | school_helper/components/AIQuizzes.tsx:209-310 | a block is dropped exactly when its question is the text "Question not found": when it has no non-blank line, or its first non-blank line reads exactly that; the options check never drops one |
| QuizResponse.ValidQuizzes | school_helper/components/AIQuizzes.tsx:129-134 | every item kept by the validity filter is an object with a string question, an array of options and a string answer |
| QuizResponse.ValidQuizzesAppend | school_helper/components/AIQuizzes.tsx:129-134 | the validity filter keeps items in their original relative order |
| QuizResponse.ValidQuizzesSingle | school_helper/components/AIQuizzes.tsx:129-134 | an item is kept exactly when it passes the validity test |
| QuizResponse.NonEmpty | school_helper/components/AIQuizzes.tsx:157 | `.filter(Boolean)` keeps only non-empty pieces, and it is empty exactly when every piece is empty |
| QuizResponse.DirectArray | school_helper/components/AIQuizzes.tsx:83-92 | the first reading succeeds exactly when the reply parses as a non-empty array, and it yields that array's items |
| QuizResponse.EmbeddedQuizzes | school_helper/components/AIQuizzes.tsx:95-151 | the second reading, when it succeeds, yields a non-empty list of valid items |
| QuizResponse.EmbeddedQuizzesAreTheValidItems | school_helper/components/AIQuizzes.tsx:124-138 | given a cleaned array, the second reading succeeds exactly when some item is valid, and it then yields the valid items |
| QuizResponse.ManualParse | school_helper/components/AIQuizzes.tsx:153-179 | a manual parse yields exactly `parseQuestionBlocks` of the non-empty question blocks, or of the non-empty alternative blocks when there is no question block; that list is non-empty, and every quiz has a real question and at least four options |
| QuizResponse.ManualParseErrors | school_helper/components/AIQuizzes.tsx:157-177 | "could not parse" is reported exactly when there is no question block and the alternative blocks yield no quiz; "no quiz questions" exactly when there are question blocks but none yields a quiz |
| QuizResponse.ParseResponse | school_helper/components/AIQuizzes.tsx:81-179 | a successful reading always yields at least one quiz; a failed one reports one of the two manual-parse messages |
| QuizResponse.DirectArrayWins | school_helper/components/AIQuizzes.tsx:84-88 | a reply that is a non-empty JSON array is used as it stands |
| QuizResponse.DirectArrayIsNotValidated | school_helper/components/AIQuizzes.tsx:84-88 | the direct reading skips the validity test: the reply `[null]` becomes a quiz list holding `null` |
| QuizResponse.EmbeddedQuizzesAreValid | school_helper/components/AIQuizzes.tsx:129-138 | JSON quizzes that do not come from the direct reading all pass the validity test |
| QuizResponse.EmbeddedPathReturnsValidItems | school_helper/components/AIQuizzes.tsx:95-138 | when the reply is not itself a non-empty array but holds one that cleans up and parses with some valid item, the reading returns exactly the valid items, in their original order |
| QuizResponse.NotFoundBlockIsDropped | school_helper/components/AIQuizzes.tsx:209-310 | the single block "Question not found" parses to no quiz: its first line is its question, and the final filter drops that question |
| QuizResponse.QuestionNotFoundIsUnreadable | school_helper/components/AIQuizzes.tsx:81-179 | with readers under which the reply "Question not found" is not JSON, holds no embedded array and is one question block, the whole cascade fails on it with "No quiz questions could be parsed from the response" |
| QuizResponse.FallsThroughToManualParse | school_helper/components/AIQuizzes.tsx:90-151 | whatever makes the first two readings fail, the manual parse decides |
| QuizResponse.RequestError | school_helper/components/AIQuizzes.tsx:61-75 | a request reaches parsing exactly when it came back ok, was not marked failed, has no error and has a non-blank reply |
| QuizResponse.RequestErrorMessages | school_helper/components/AIQuizzes.tsx:61-75 | an error in the body is reported as it is; otherwise a bad status reports "Failed to fetch quizzes (Status n)", a failed status "Failed to generate quizzes", and a blank reply "No quiz content received from API" |
| QuizResponse.AttemptStep | school_helper/components/AIQuizzes.tsx:59-195 | a request is retried exactly when it passes the checks, its reply cannot be read and the retry count is below 3; a request error ends loading with that error; loaded quizzes are the reading of the reply |
| QuizResponse.FetchQuizzes | school_helper/components/AIQuizzes.tsx:184-191 | loading makes at least one request and at most 3 - retryCount + 1; from a count of 3 or more, exactly one |
| QuizResponse.LoadedComesFromSomeReply | school_helper/components/AIQuizzes.tsx:179-191 | loaded quizzes are the reading of the last request made, and that request passed the checks |
| QuizResponse.LoadQuizzes | school_helper/components/AIQuizzes.tsx:28-33 | without a document nothing is fetched and "No document selected" is shown; whatever is loaded is a non-empty quiz list |
| QuizResponse.PersistentParseFailure | school_helper/components/AIQuizzes.tsx:184-195 | replies that stay unreadable are requested until the count reaches 3, and then the last parse error is reported with its "Error parsing quiz questions: " prefix |
| QuizResponse.UnreadableRepliesFetchFourTimes | school_helper/components/AIQuizzes.tsx:26 | from a fresh start, replies that stay unreadable cost four requests and end in an error |
| QuizResponse.RetryRecovers | school_helper/components/AIQuizzes.tsx:184-190 | a retry whose reply can be read ends loading with those quizzes, after one request per attempt so far |
| QuizResponse.RequestErrorsAreNotRetried | school_helper/components/AIQuizzes.tsx:61-75 | a request that threw, a bad status, an error or a blank reply ends loading at once with that error, after one request |
| StaleRetry.Tick | school_helper/components/AIQuizzes.tsx:36-195 | one pending run makes exactly one request |
| StaleRetry.TickEffect | school_helper/components/AIQuizzes.tsx:184-190 | a run that cannot read its reply and may retry bumps the state and leaves two runs pending, the effect's with the new count and its own timer with its old count; any other run leaves the queue, showing its quizzes or its error |
| StaleRetry.Run | school_helper/components/AIQuizzes.tsx:184-190 | a run of k steps makes at most k requests, and fewer only when nothing is left pending |
| StaleRetry.TickKeepsRetrying | school_helper/components/AIQuizzes.tsx:184-190 | under an unreadable reply, some pending run can still retry after any step |
| StaleRetry.UnreadableRepliesNeverStop | school_helper/components/AIQuizzes.tsx:184-190 | while replies stay unreadable, every step makes a request, in any order of the pending runs |
| StaleRetry.NotFoundPassesChecks | school_helper/components/AIQuizzes.tsx:61-75 | a 200 reply "Question not found" with no error passes the request checks |
| StaleRetry.NotFoundRepliesAreUnreadable | school_helper/components/AIQuizzes.tsx:61-179 | a backend that always answers "Question not found" gives, at every request, a reply that passes the checks and that the modelled cascade cannot read |
| StaleRetry.RequestsAreUnbounded | school_helper/components/AIQuizzes.tsx:184-190 | for any bound, a component mounted on a backend that always answers "Question not found", read by the modelled cascade, makes more requests than the bound, in every order of the pending runs, while the intended loop makes four |

## Left out

- Network and services are left out: the HTTP request and the text-generation API call (`processWithClaude`), the database, PDF extraction and audio handling. The backend and each request's outcome are parameters instead.
- The markdown-to-HTML rewriting of replies is left out, because it is regular-expression rewriting with no contract to state.
- The regular expressions are parameters (`Quiz.Extractors`, `QuizResponse.Readers`). This covers the option, answer and explanation patterns, the search for an embedded JSON array, the JSON cleaning replacements, and the two block splits. `JSON.parse` is a parameter as well.
- JSON numbers are integers. Floating point is not modelled.
- `isMetaProcessing` is recorded in each call. `processWithClaude` only declares it and never reads it, so it has no effect in the program either.
- A rate-limit reply from the backend counts as a successful text, just as the backend returns it.
- `Text.ToLower` lowercases ASCII letters only. This is enough to find "summarize", but it is not full Unicode `toLowerCase`.
- The chunk loop's `await`s are modelled as a sequential fold over the chunks. The code issues the calls one after another, so nothing is lost.
- React state and rendering are left out: loading flags, revealed answers, the retry button and the display. `StaleRetry.Screen` keeps only the quizzes and the error shown.
- `StaleRetry` takes each run of `fetchQuizzes` as one atomic step. Runs that overlap across their `await`s are not modelled; `schedule` still picks any order in which whole runs start.
- QuizResponse.FetchQuizzes: models the intended retry loop, one chain of requests with counts 0, 1, 2, 3. It leaves out the effect re-runs and stale timers the component actually schedules, which `StaleRetry` models.
- QuizResponse.LoadedComesFromSomeReply: is about the intended loop only. In the component as written, a stale run can load quizzes or show an error after another run has already finished.
- QuizResponse.PersistentParseFailure: is about the intended loop only. In the component as written, unreadable replies are requested without end (`StaleRetry.RequestsAreUnbounded`).
- QuizResponse.UnreadableRepliesFetchFourTimes: the four requests are those of the intended loop. The component as written makes unboundedly many.
- QuizResponse.RetryRecovers: is about the intended loop only. In the component as written, other pending runs keep making requests after one run has loaded its quizzes.
- Lengths and indices are counted in code points, while JavaScript counts UTF-16 code units. They agree only for text without characters above U+FFFF. A text containing U+1F600, say, has its chunk boundaries placed differently, and the code can cut between the two halves of a surrogate pair, which the model cannot express.
- An error thrown that is not an `Error`, and so has no message, is not modelled. Every error the code throws here is an `Error`.
- Debug logging is left out.

## Findings

| source | as written | input that shows it | evidently intended | confidence | as-written member | corrected member |
|---|---|---|---|---|---|---|
| school_helper/components/AIQuizzes.tsx:184-190 | a failed parse with a captured `retryCount` below 3 bumps the state, which re-runs the effect with a new count, and also arms `setTimeout(() => fetchQuizzes(), 1500)` on the old closure, whose captured count never changes; the effect has no cleanup | every request answers 200 with the reply "Question not found" (not JSON, no embedded array, one block whose question is that text): the cascade rejects it, and the closure that captured 0 re-arms itself on every failure, so requests never stop | at most `MAX_RETRIES` retries: four requests in all, then "Error parsing quiz questions: ..." | not executed | StaleRetry.RequestsAreUnbounded | QuizResponse.UnreadableRepliesFetchFourTimes |

=== FILE: pipeline.dfy ===
/** `processContentInChunks`: short content goes to the text-generation
    backend directly; long content is split, each chunk is sent with its
    own prompt (a failed call leaves an error marker and processing goes
    on), and one last call merges the part results, with a fixed
    concatenation as the fallback when that call fails.

    The backend (`processWithClaude`) is a parameter: `backend(n, call)` is
    its reply to the `n`-th call of the request (0-based). Since every
    prompt is a function of the earlier replies, this covers any backend
    behaviour, stateful or not. */
module ChunkPipeline {
  import opened Text
  import opened Splitter

  /** Content shorter than this is not split. */
  const DirectLimit: nat := 8000

  /** One `processWithClaude(content, message, documentName, isMetaProcessing)` call. */
  datatype Call = Call(content: string, prompt: string, documentName: string, isMetaProcessing: bool)

  /** A backend call either returns text or throws. */
  datatype Reply = Success(text: string) | Failure

  type Backend = (nat, Call) -> Reply

  /** What one request produced: the value returned (or the exception that
      escaped, as `Failure`) and the backend calls made, in order. */
  datatype Run = Run(reply: Reply, calls: seq<Call>)

  /** `message.toLowerCase().includes('summarize')`. */
  predicate IsInitialSummary(message: string) {
    Contains(ToLower(message), "summarize")
  }

  /** "summarize" occurs at index `i` of `s`, each letter in either case. */
  predicate MixedCaseAt(s: string, i: int) {
    0 <= i && i + 9 <= |s|
    && forall k :: 0 <= k < 9 ==> s[i + k] == "summarize"[k] || s[i + k] == "SUMMARIZE"[k]
  }

  /** A message asks for the initial summary exactly when "summarize"
      occurs in it in any mix of upper and lower case. */
  lemma SummaryRequestIgnoresCase(message: string)
    ensures IsInitialSummary(message) <==> exists i :: MixedCaseAt(message, i)
  {
    forall i ensures MatchAt(ToLower(message), "summarize", i) <==> MixedCaseAt(message, i) {
      MixedCaseAtLowered(message, i);
    }
  }

  /** Lower-casing sends a character to a letter of "summarize" exactly
      when it is that letter or its capital. */
  lemma MixedCaseAtLowered(s: string, i: int)
    ensures MatchAt(ToLower(s), "summarize", i) <==> MixedCaseAt(s, i)
  {
  }

  function PartTag(i: nat, n: nat): string {
    "PART " + NatToString(i + 1) + " of " + NatToString(n)
  }

  const SummaryLead := "Please summarize this "
  const QuestionLead := "This is "
  const QuestionAsk := " of the transcription. Based on this part only, please answer the following question: "

  /** The prompt for chunk `i` (0-based) of `n`: both modes name the part as
      "PART i+1 of n"; only the question mode carries the user's message,
      verbatim, at its end. */
  function ChunkPrompt(message: string, summary: bool, i: nat, n: nat): (prompt: string)
    ensures MatchAt(prompt, PartTag(i, n), if summary then |SummaryLead| else |QuestionLead|)
    ensures !summary ==> |message| <= |prompt| && prompt[|prompt| - |message|..] == message
  {
    var tag := PartTag(i, n);
    if summary then
      var prompt := SummaryLead + tag + " of the transcription. Focus on key points only:";
      assert prompt[|SummaryLead|..|SummaryLead| + |tag|] == tag;
      prompt
    else
      var prompt := QuestionLead + tag + QuestionAsk + message;
      assert prompt[|QuestionLead|..|QuestionLead| + |tag|] == tag;
      prompt
  }

  /** The summary-mode prompt does not depend on the user's message. */
  lemma SummaryPromptIgnoresMessage(m1: string, m2: string, i: nat, n: nat)
    ensures ChunkPrompt(m1, true, i, n) == ChunkPrompt(m2, true, i, n)
  {
  }

  /** The calls made for the chunks, one per chunk, in chunk order. */
  function ChunkCalls(chunks: seq<string>, message: string, documentName: string): (calls: seq<Call>)
    ensures |calls| == |chunks|
    ensures forall k :: 0 <= k < |chunks| ==>
              && calls[k].content == chunks[k]
              && calls[k].documentName == documentName
              && !calls[k].isMetaProcessing
              && MatchAt(calls[k].prompt, PartTag(k, |chunks|),
                         if IsInitialSummary(message) then |SummaryLead| else |QuestionLead|)
  {
    var summary := IsInitialSummary(message);
    seq(|chunks|, k requires 0 <= k < |chunks| =>
      Call(chunks[k], ChunkPrompt(message, summary, k, |chunks|), documentName, false))
  }

  /** The text recorded for a chunk whose call threw: `[Error processing part k+1]`. */
  function ErrorMarker(k: nat): string {
    "[Error processing part " + NatToString(k + 1) + "]"
  }

  /** The `try`/`catch` around one chunk call. */
  function PartResult(reply: Reply, k: nat): string {
    match reply
    case Success(text) => text
    case Failure => ErrorMarker(k)
  }

  /** `chunkResults` after the loop: each chunk contributes exactly one
      result, in chunk order: the reply text of its own call, or
      `[Error processing part k+1]` when that call threw; a failure changes
      nothing for the other chunks. */
  function ChunkResults(backend: Backend, calls: seq<Call>): (results: seq<string>)
    ensures |results| == |calls|
    ensures forall k :: 0 <= k < |calls| && backend(k, calls[k]).Failure? ==> results[k] == ErrorMarker(k)
    ensures forall k :: 0 <= k < |calls| && backend(k, calls[k]).Success? ==> results[k] == backend(k, calls[k]).text
  {
    seq(|calls|, k requires 0 <= k < |calls| => PartResult(backend(k, calls[k]), k))
  }

  function PartLabel(summary: bool, i: nat): string {
    if summary then "PART " + NatToString(i + 1) + " SUMMARY:\n"
    else "ANSWER FROM PART " + NatToString(i + 1) + ":\n"
  }

  /** Every part result preceded by its label, in order. */
  function LabelledParts(summary: bool, results: seq<string>): (parts: seq<string>)
    ensures |parts| == |results|
  {
    seq(|results|, i requires 0 <= i < |results| => PartLabel(summary, i) + results[i])
  }

  const CombineIntro := "You received the following "
  const SummariesTail := " summaries of different parts of a transcription. \n    Please combine them into one coherent, well-organized summary. Remove redundancy but preserve all key information:\n    \n    "
  const AnswersQuote := " answers to the question \""
  const AnswersTail := "\" from different parts of a transcription. \n    Please combine them into one coherent, non-redundant answer that addresses the question fully:\n    \n    "

  /** The part of the merge instruction before the listed parts. */
  function CombineHeader(message: string, summary: bool, n: nat): (header: string)
    ensures MatchAt(header, CombineIntro + NatToString(n), 0)
    ensures summary ==> MatchAt(header, SummariesTail, |CombineIntro + NatToString(n)|)
    ensures !summary ==> MatchAt(header, message, |CombineIntro + NatToString(n) + AnswersQuote|)
  {
    var lead := CombineIntro + NatToString(n);
    CombineHeaderShape(lead, message, summary);
    if summary then lead + SummariesTail
    else lead + AnswersQuote + message + AnswersTail
  }

  lemma CombineHeaderShape(lead: string, message: string, summary: bool)
    ensures MatchAt(lead + SummariesTail, lead, 0)
    ensures MatchAt(lead + SummariesTail, SummariesTail, |lead|)
    ensures MatchAt(lead + AnswersQuote + message + AnswersTail, lead, 0)
    ensures MatchAt(lead + AnswersQuote + message + AnswersTail, message, |lead + AnswersQuote|)
  {
  }

  const PartSeparator := "\n\n"

  /** `combineSummariesPrompt` / `combineAnswersPrompt`. */
  function CombinePrompt(message: string, summary: bool, results: seq<string>): (prompt: string)
    ensures MatchAt(prompt, CombineIntro + NatToString(|results|), 0)
  {
    var header := CombineHeader(message, summary, |results|);
    var parts := Join(LabelledParts(summary, results), PartSeparator);
    MatchAtExtend(header, parts, CombineIntro + NatToString(|results|), 0);
    header + parts
  }

  const FallbackSeparator := "\n\n---\n\n"
  const SummaryFallbackPrefix := "COMBINED SUMMARY (automatically assembled, not unified due to error):\n\n"
  const AnswerFallbackPrefix := "COMBINED ANSWER (automatically assembled, not unified due to error):\n\n"

  function FallbackPrefix(summary: bool): string {
    if summary then SummaryFallbackPrefix else AnswerFallbackPrefix
  }

  /** The text returned when the combining call throws. */
  function Fallback(summary: bool, results: seq<string>): (text: string)
    ensures |text| > 0
    ensures MatchAt(text, FallbackPrefix(summary), 0)
  {
    var prefix := FallbackPrefix(summary);
    assert MatchAt(prefix, prefix, 0);
    MatchAtExtend(prefix, Join(results, FallbackSeparator), prefix, 0);
    prefix + Join(results, FallbackSeparator)
  }

  /** The combining call: empty content, the merge instruction as message. */
  function CombineCall(message: string, documentName: string, results: seq<string>): Call {
    Call("", CombinePrompt(message, IsInitialSummary(message), results), documentName, true)
  }

  /** The whole of `processContentInChunks`. */
  function Pipeline(backend: Backend, content: string, message: string, documentName: string): (run: Run)
    ensures |content| < DirectLimit ==> run.calls == [Call(content, message, documentName, false)]
    ensures |content| >= DirectLimit ==> run.reply.Success? && |run.calls| == |Chunks(content)| + 1
  {
    if |content| < DirectLimit then
      var call := Call(content, message, documentName, false);
      Run(backend(0, call), [call])
    else
      var chunks := Chunks(content);
      var calls := ChunkCalls(chunks, message, documentName);
      var results := ChunkResults(backend, calls);
      var combine := CombineCall(message, documentName, results);
      var text := match backend(|calls|, combine)
        case Success(t) => t
        case Failure => Fallback(IsInitialSummary(message), results);
      Run(Success(text), calls + [combine])
  }

  /** Content under `DirectLimit` characters is not split: exactly one call,
      with the original message, whose reply (or exception) is the result. */
  lemma ShortContentIsDirect(backend: Backend, content: string, message: string, documentName: string)
    requires |content| < DirectLimit
    ensures var run := Pipeline(backend, content, message, documentName);
            && run.calls == [Call(content, message, documentName, false)]
            && run.reply == backend(0, run.calls[0])
  {
  }

  function CallContents(calls: seq<Call>): (contents: seq<string>)
    ensures |contents| == |calls|
  {
    seq(|calls|, k requires 0 <= k < |calls| => calls[k].content)
  }

  /** Long content costs exactly one call per chunk plus one combining call;
      the chunk calls carry the whole content, in order, and the last call
      has empty content. */
  lemma LongContentCalls(backend: Backend, content: string, message: string, documentName: string)
    requires |content| >= DirectLimit
    ensures var run := Pipeline(backend, content, message, documentName);
            var n := |Chunks(content)|;
            && n >= 1
            && |run.calls| == n + 1
            && Concat(CallContents(run.calls[..n])) == content
            && (forall k :: 0 <= k < n ==> !run.calls[k].isMetaProcessing && run.calls[k].content != "")
            && run.calls[n].content == ""
            && run.calls[n].isMetaProcessing
  {
    var run := Pipeline(backend, content, message, documentName);
    var chunks := Chunks(content);
    var n := |chunks|;
    assert run.calls[..n] == ChunkCalls(chunks, message, documentName);
    assert CallContents(run.calls[..n]) == chunks;
    ChunksAreLossless(content);
  }

  /** The backend never answers a call with empty text (`processWithClaude`
      substitutes "No response from Claude" for a missing text). */
  ghost predicate NeverEmpty(backend: Backend) {
    forall n: nat, c: Call :: backend(n, c).Success? ==> backend(n, c).text != ""
  }

  /** Long content never makes the request fail: the result is the combining
      call's text, or the fallback when that call threw; it is non-empty
      whenever the backend never answers with empty text. */
  lemma LongContentAlwaysAnswers(backend: Backend, content: string, message: string, documentName: string)
    requires |content| >= DirectLimit
    ensures var run := Pipeline(backend, content, message, documentName);
            var n := |run.calls| - 1;
            var last := backend(n, run.calls[n]);
            && run.reply.Success?
            && (last.Success? ==> run.reply.text == last.text)
            && (last.Failure? ==> run.reply.text == Fallback(IsInitialSummary(message),
                                                          ChunkResults(backend, run.calls[..n])))
            && (NeverEmpty(backend) ==> run.reply.text != "")
  {
    var run := Pipeline(backend, content, message, documentName);
    var chunks := Chunks(content);
    var calls := ChunkCalls(chunks, message, documentName);
    assert run.calls[..|calls|] == calls;
  }

  /** The merge instruction lists every part result after its label, in
      part order: entry `k` sits where the blank-line join puts it ... */
  lemma CombinePromptListsParts(message: string, summary: bool, results: seq<string>, k: nat)
    requires k < |results|
    ensures MatchAt(CombinePrompt(message, summary, results), PartLabel(summary, k) + results[k],
                    |CombineHeader(message, summary, |results|)|
                    + JoinOffset(LabelledParts(summary, results), PartSeparator, k))
  {
    var parts := LabelledParts(summary, results);
    assert parts[k] == PartLabel(summary, k) + results[k];
    JoinAfterPrefix(CombineHeader(message, summary, |results|), parts, PartSeparator, k);
  }

  /** ... and entry `k + 1` starts right after entry `k` and one blank line. */
  lemma CombinePromptSeparatesParts(message: string, summary: bool, results: seq<string>, k: nat)
    requires k + 1 < |results|
    ensures JoinOffset(LabelledParts(summary, results), PartSeparator, k + 1)
            == JoinOffset(LabelledParts(summary, results), PartSeparator, k)
               + |PartLabel(summary, k) + results[k]| + |PartSeparator|
    ensures MatchAt(CombinePrompt(message, summary, results), PartSeparator,
                    |CombineHeader(message, summary, |results|)|
                    + JoinOffset(LabelledParts(summary, results), PartSeparator, k)
                    + |PartLabel(summary, k) + results[k]|)
  {
    JoinAfterPrefix(CombineHeader(message, summary, |results|), LabelledParts(summary, results), PartSeparator, k);
  }

  /** ... and the last entry ends the merge instruction. */
  lemma CombinePromptEndsWithLastPart(message: string, summary: bool, results: seq<string>)
    requires |results| > 0
    ensures var n := |results|;
            |CombineHeader(message, summary, n)| + JoinOffset(LabelledParts(summary, results), PartSeparator, n - 1)
            + |PartLabel(summary, n - 1) + results[n - 1]|
            == |CombinePrompt(message, summary, results)|
  {
    var parts := LabelledParts(summary, results);
    assert parts[|parts| - 1] == PartLabel(summary, |results| - 1) + results[|results| - 1];
    JoinEndsWithLast(parts, PartSeparator);
  }

  /** In question mode the merge instruction quotes the user's question. */
  lemma CombinePromptQuotesQuestion(message: string, results: seq<string>)
    ensures MatchAt(CombinePrompt(message, false, results), message,
                    |CombineIntro + NatToString(|results|) + AnswersQuote|)
  {
    var lead := CombineIntro + NatToString(|results|) + AnswersQuote;
    assert MatchAt(message, message, 0);
    MatchAtShift(lead, message, message, 0);
    MatchAtExtend(lead + message, AnswersTail, message, |lead|);
    MatchAtExtend(lead + message + AnswersTail, Join(LabelledParts(false, results), PartSeparator), message, |lead|);
  }

  /** The fallback keeps every part result, in order, after its fixed
      prefix: result `k` sits where the `---` join puts it ... */
  lemma FallbackListsParts(summary: bool, results: seq<string>, k: nat)
    requires k < |results|
    ensures MatchAt(Fallback(summary, results), results[k],
                    |FallbackPrefix(summary)| + JoinOffset(results, FallbackSeparator, k))
  {
    JoinAfterPrefix(FallbackPrefix(summary), results, FallbackSeparator, k);
  }

  /** ... a `---` separator follows every result but the last ... */
  lemma FallbackSeparatesParts(summary: bool, results: seq<string>, k: nat)
    requires k + 1 < |results|
    ensures MatchAt(Fallback(summary, results), FallbackSeparator,
                    |FallbackPrefix(summary)| + JoinOffset(results, FallbackSeparator, k) + |results[k]|)
  {
    JoinAfterPrefix(FallbackPrefix(summary), results, FallbackSeparator, k);
  }

  /** ... and the last result ends the fallback. */
  lemma FallbackEndsWithLastPart(summary: bool, results: seq<string>)
    requires |results| > 0
    ensures |FallbackPrefix(summary)| + JoinOffset(results, FallbackSeparator, |results| - 1) + |results[|results| - 1]|
            == |Fallback(summary, results)|
  {
    JoinEndsWithLast(results, FallbackSeparator);
  }

  /** The `for` loop over the chunks: one call per chunk, in
      order, each wrapped in its `try`/`catch`. */
  method ProcessChunks(backend: Backend, chunks: seq<string>, message: string, documentName: string)
    returns (calls: seq<Call>, chunkResults: seq<string>)
    ensures calls == ChunkCalls(chunks, message, documentName)
    ensures chunkResults == ChunkResults(backend, calls)
  {
    var isInitialSummary := IsInitialSummary(message);
    ghost var expected := ChunkCalls(chunks, message, documentName);
    ghost var results := ChunkResults(backend, expected);
    calls := [];
    chunkResults := [];
    var i := 0;
    while i < |chunks|
      invariant 0 <= i <= |chunks|
      invariant calls == expected[..i]
      invariant chunkResults == results[..i]
    {
      var chunkPrompt := ChunkPrompt(message, isInitialSummary, i, |chunks|);
      var call := Call(chunks[i], chunkPrompt, documentName, false);
      assert call == expected[i];
      var reply := backend(|calls|, call);
      var chunkResult;
      match reply {
        case Success(text) =>
          chunkResult := text;
        case Failure =>
          chunkResult := ErrorMarker(i);
      }
      assert chunkResult == results[i];
      SnocSlice(expected, i);
      SnocSlice(results, i);
      chunkResults := chunkResults + [chunkResult];
      calls := calls + [call];
      i := i + 1;
    }
    assert calls == expected;
    assert chunkResults == results;
  }

  lemma SnocSlice<T>(s: seq<T>, i: nat)
    requires i < |s|
    ensures s[..i] + [s[i]] == s[..i + 1]
  {
  }
}

=== FILE: quiz.dfy ===
/** `parseQuestionBlocks`, the last-resort quiz parser: each text block
    becomes a question with at least four options, an answer and an
    optional explanation, and blocks without a question are dropped.

    The regular expressions that pull options, answers and explanations
    out of a block are parameters (`Extractors`); what is modelled is the
    normalisation around them: which extraction wins, the padding of the
    options, how an answer letter is resolved, the defaults and the final
    filter. */
module Quiz {
  import opened Text

  const QuestionNotFound := "Question not found"
  const MinOptions: nat := 4

  datatype QuizQuestion = QuizQuestion(
    question: string,
    options: seq<string>,
    answer: string,
    explanation: Option<string>)

  /** The regular-expression steps, taken as given:
      - `optionPatterns[i](block)`: the second capture group of every match
        of the i-th option pattern in the block, in order, untrimmed;
      - `lineOption(line)`: the second capture group of the per-line option
        pattern on an already trimmed line, if it matches;
      - `answerPatterns[i](block)`: the first capture group of the i-th
        answer pattern, if it matches;
      - `explanationPatterns[i](block)`: likewise for explanations. */
  datatype Extractors = Extractors(
    optionPatterns: seq<string -> seq<string>>,
    lineOption: string -> Option<string>,
    answerPatterns: seq<string -> Option<string>>,
    explanationPatterns: seq<string -> Option<string>>)

  predicate IsNonBlank(line: string) {
    Trim(line) != ""
  }

  /** The trimmed first line, or failing that the first non-blank line, or
      "Question not found". Both steps amount to: the first non-blank line,
      trimmed. */
  function QuestionOf(block: string): (question: string)
    ensures question != ""
    ensures var lines := SplitOn(block, '\n');
            var j := FirstWhere(lines, IsNonBlank);
            && (j < |lines| ==> question == Trim(lines[j]))
            && (j == |lines| ==> question == QuestionNotFound)
  {
    var lines := SplitOn(block, '\n');
    var first := Trim(lines[0]);
    if first != "" then first
    else
      var nonBlank := Filter(lines, IsNonBlank);
      if |nonBlank| > 0 then Trim(nonBlank[0]) else QuestionNotFound
  }

  function TrimAll(xs: seq<string>): seq<string> {
    seq(|xs|, i requires 0 <= i < |xs| => Trim(xs[i]))
  }

  /** The `for (const pattern of optionPatterns)` loop: the trimmed captures
      of the first pattern that matches at all. */
  function PatternOptions(block: string, patterns: seq<string -> seq<string>>): (options: seq<string>)
    ensures options == [] <==> forall i :: 0 <= i < |patterns| ==> patterns[i](block) == []
    decreases |patterns|
  {
    if |patterns| == 0 then []
    else
      var found := patterns[0](block);
      if |found| > 0 then TrimAll(found)
      else
        var rest := PatternOptions(block, patterns[1..]);
        assert forall i :: 1 <= i < |patterns| ==> patterns[i] == patterns[1..][i - 1];
        rest
  }

  function Captures<T>(block: string, patterns: seq<string -> T>): (found: seq<T>)
    ensures |found| == |patterns|
  {
    seq(|patterns|, i requires 0 <= i < |patterns| => patterns[i](block))
  }

  /** The pattern that wins is the first one with a match. */
  lemma {:induction false} PatternOptionsFirstMatch(block: string, patterns: seq<string -> seq<string>>)
    ensures var found := Captures(block, patterns);
            var k := FirstWhere(found, (m: seq<string>) => |m| > 0);
            PatternOptions(block, patterns) == if k < |found| then TrimAll(found[k]) else []
    decreases |patterns|
  {
    if |patterns| > 0 && |patterns[0](block)| == 0 {
      PatternOptionsFirstMatch(block, patterns[1..]);
      assert Captures(block, patterns)[1..] == Captures(block, patterns[1..]);
    }
  }

  /** The per-line fallback: every line whose trimmed text matches the
      option pattern contributes its trimmed capture, in order. */
  function LineOptions(lines: seq<string>, lineOption: string -> Option<string>): (options: seq<string>)
    ensures |options| <= |lines|
    decreases |lines|
  {
    if |lines| == 0 then []
    else
      var here := match lineOption(Trim(lines[0]))
        case Some(capture) => [Trim(capture)]
        case None => [];
      here + LineOptions(lines[1..], lineOption)
  }

  /** Lines are read independently and their options kept in line order ... */
  lemma {:induction false} LineOptionsAppend(a: seq<string>, b: seq<string>, lineOption: string -> Option<string>)
    ensures LineOptions(a + b, lineOption) == LineOptions(a, lineOption) + LineOptions(b, lineOption)
    decreases |a|
  {
    if |a| == 0 {
      assert a + b == b;
    } else {
      var head := LineOptions([a[0]], lineOption);
      calc {
        LineOptions(a + b, lineOption);
        { assert (a + b)[0] == a[0] && (a + b)[1..] == a[1..] + b;
          LineOptionsHead(a + b, lineOption); }
        head + LineOptions(a[1..] + b, lineOption);
        { LineOptionsAppend(a[1..], b, lineOption); }
        head + (LineOptions(a[1..], lineOption) + LineOptions(b, lineOption));
        (head + LineOptions(a[1..], lineOption)) + LineOptions(b, lineOption);
        { LineOptionsHead(a, lineOption); }
        LineOptions(a, lineOption) + LineOptions(b, lineOption);
      }
    }
  }

  lemma LineOptionsHead(lines: seq<string>, lineOption: string -> Option<string>)
    requires |lines| > 0
    ensures LineOptions(lines, lineOption) == LineOptions([lines[0]], lineOption) + LineOptions(lines[1..], lineOption)
  {
    assert [lines[0]][1..] == [];
  }

  /** ... and a line gives an option exactly when its trimmed text matches;
      the option is the trimmed capture. */
  lemma LineOptionsSingle(line: string, lineOption: string -> Option<string>)
    ensures LineOptions([line], lineOption)
            == match lineOption(Trim(line)) case Some(capture) => [Trim(capture)] case None => []
  {
    assert [line][1..] == [];
  }

  /** Options from the patterns, else from the lines after the first. */
  function ExtractOptions(block: string, ex: Extractors): (options: seq<string>)
    ensures (exists i :: 0 <= i < |ex.optionPatterns| && ex.optionPatterns[i](block) != [])
            ==> options == PatternOptions(block, ex.optionPatterns) && options != []
    ensures (forall i :: 0 <= i < |ex.optionPatterns| ==> ex.optionPatterns[i](block) == [])
            ==> options == LineOptions(SplitOn(block, '\n')[1..], ex.lineOption)
  {
    var fromPatterns := PatternOptions(block, ex.optionPatterns);
    if |fromPatterns| > 0 then fromPatterns
    else LineOptions(SplitOn(block, '\n')[1..], ex.lineOption)
  }

  function PadLabel(n: nat): string {
    "Option " + NatToString(n)
  }

  /** `while (options.length < 4) options.push(`Option ${options.length + 1}`)`:
      the options are kept as they are and followed, up to four, by
      placeholders numbered by their 1-based position. */
  function PadOptions(options: seq<string>): (padded: seq<string>)
    ensures |padded| == if |options| < MinOptions then MinOptions else |options|
    ensures padded[..|options|] == options
    ensures forall k :: |options| <= k < |padded| ==> padded[k] == PadLabel(k + 1)
    decreases MinOptions - |options|
  {
    if |options| >= MinOptions then options
    else
      var next := options + [PadLabel(|options| + 1)];
      var padded := PadOptions(next);
      assert padded[..|options|] == padded[..|next|][..|options|];
      padded
  }

  /** `/^[A-D]$/i`. */
  predicate IsAnswerLetter(capture: string) {
    |capture| == 1 && ('A' <= capture[0] <= 'D' || 'a' <= capture[0] <= 'd')
  }

  /** `capture.toUpperCase().charCodeAt(0) - 'A'.charCodeAt(0)`. */
  function LetterIndex(capture: string): (index: nat)
    requires IsAnswerLetter(capture)
    ensures index < MinOptions
    ensures capture[0] == "ABCD"[index] || capture[0] == "abcd"[index]
  {
    if 'a' <= capture[0] <= 'd' then capture[0] as int - 'a' as int
    else capture[0] as int - 'A' as int
  }

  /** The `for (const pattern of answerPatterns)` loop: the first capture
      that is either a letter naming an existing option (that option) or
      not a letter at all (its trimmed text); "" when none is. */
  function MatchAnswer(block: string, options: seq<string>, patterns: seq<string -> Option<string>>): (answer: string)
    ensures (forall i :: 0 <= i < |patterns| ==> patterns[i](block).None?) ==> answer == ""
    ensures || answer == ""
            || answer in options
            || exists i :: 0 <= i < |patterns| && patterns[i](block).Some? && answer == Trim(patterns[i](block).value)
    decreases |patterns|
  {
    if |patterns| == 0 then ""
    else
      assert forall i :: 1 <= i < |patterns| ==> patterns[i] == patterns[1..][i - 1];
      match patterns[0](block)
      case None => MatchAnswer(block, options, patterns[1..])
      case Some(capture) =>
        if IsAnswerLetter(capture) then
          var index := LetterIndex(capture);
          if index < |options| then options[index] else MatchAnswer(block, options, patterns[1..])
        else Trim(capture)
  }

  /** A capture ends the answer search. */
  predicate Resolves(options: seq<string>, capture: Option<string>) {
    capture.Some? && (IsAnswerLetter(capture.value) ==> LetterIndex(capture.value) < |options|)
  }

  function Resolution(options: seq<string>, capture: string): string
    requires IsAnswerLetter(capture) ==> LetterIndex(capture) < |options|
  {
    if IsAnswerLetter(capture) then options[LetterIndex(capture)] else Trim(capture)
  }

  /** The answer comes from the first capture that resolves. */
  lemma {:induction false} MatchAnswerFirstResolving(block: string, options: seq<string>,
                                                     patterns: seq<string -> Option<string>>)
    ensures var found := Captures(block, patterns);
            var k := FirstWhere(found, (c: Option<string>) => Resolves(options, c));
            MatchAnswer(block, options, patterns) == if k < |found| then Resolution(options, found[k].value) else ""
    decreases |patterns|
  {
    if |patterns| > 0 {
      var found := Captures(block, patterns);
      assert found[1..] == Captures(block, patterns[1..]);
      if !Resolves(options, patterns[0](block)) {
        MatchAnswerFirstResolving(block, options, patterns[1..]);
      }
    }
  }

  /** Once there are four options every letter names one, so the range
      check never sends the search on: the first pattern that matches at
      all decides the answer. */
  lemma PaddedOptionsResolveEveryCapture(options: seq<string>, capture: Option<string>)
    requires |options| >= MinOptions
    ensures Resolves(options, capture) <==> capture.Some?
  {
  }

  /** The answer, defaulting to the first option when none was found. */
  function ResolveAnswer(block: string, options: seq<string>, patterns: seq<string -> Option<string>>): (answer: string)
    ensures answer == "" ==> |options| == 0 || options[0] == ""
    ensures |options| > 0 && MatchAnswer(block, options, patterns) == "" ==> answer == options[0]
    ensures MatchAnswer(block, options, patterns) != "" ==> answer == MatchAnswer(block, options, patterns)
  {
    var answer := MatchAnswer(block, options, patterns);
    if answer == "" && |options| > 0 then options[0] else answer
  }

  /** The trimmed capture of the first explanation pattern that matches. */
  function ExplanationOf(block: string, patterns: seq<string -> Option<string>>): (explanation: Option<string>)
    ensures explanation.None? <==> forall i :: 0 <= i < |patterns| ==> patterns[i](block).None?
    decreases |patterns|
  {
    if |patterns| == 0 then None
    else match patterns[0](block)
      case Some(capture) => Some(Trim(capture))
      case None =>
        var rest := ExplanationOf(block, patterns[1..]);
        assert forall i :: 1 <= i < |patterns| ==> patterns[i] == patterns[1..][i - 1];
        rest
  }

  /** The explanation comes from the first pattern that matches. */
  lemma {:induction false} ExplanationFirstMatch(block: string, patterns: seq<string -> Option<string>>)
    ensures var found := Captures(block, patterns);
            var k := FirstWhere(found, (c: Option<string>) => c.Some?);
            ExplanationOf(block, patterns) == if k < |found| then Some(Trim(found[k].value)) else None
    decreases |patterns|
  {
    if |patterns| > 0 && patterns[0](block).None? {
      ExplanationFirstMatch(block, patterns[1..]);
      assert Captures(block, patterns)[1..] == Captures(block, patterns[1..]);
    }
  }

  /** The `blocks.map(...)` callback. */
  function NormaliseBlock(block: string, ex: Extractors): (quiz: QuizQuestion)
    ensures quiz.question != ""
    ensures |quiz.options| >= MinOptions
    ensures quiz.answer == "" ==> quiz.options[0] == ""
  {
    var question := QuestionOf(block);
    var options := PadOptions(ExtractOptions(block, ex));
    var answer := ResolveAnswer(block, options, ex.answerPatterns);
    QuizQuestion(question, options, answer, ExplanationOf(block, ex.explanationPatterns))
  }

  /** The final `.filter(...)`. */
  predicate Keep(quiz: QuizQuestion) {
    quiz.question != QuestionNotFound && |quiz.options| > 0
  }

  /** The `blocks.map(...)` step. */
  function NormaliseAll(blocks: seq<string>, ex: Extractors): (quizzes: seq<QuizQuestion>)
    ensures |quizzes| == |blocks|
    ensures forall i :: 0 <= i < |blocks| ==> quizzes[i] == NormaliseBlock(blocks[i], ex)
  {
    Map(blocks, (block: string) => NormaliseBlock(block, ex))
  }

  /** The `.filter(...)` step: the kept quizzes, in order. (A recursion of
      its own rather than `Filter(quizzes, Keep)`: the generic filter's
      contract makes every caller of `ParseQuestionBlocks` far costlier to
      check.) */
  function KeepAll(quizzes: seq<QuizQuestion>): (kept: seq<QuizQuestion>)
    ensures |kept| <= |quizzes|
    ensures forall i :: 0 <= i < |kept| ==> Keep(kept[i]) && kept[i] in quizzes
    decreases |quizzes|
  {
    if |quizzes| == 0 then []
    else (if Keep(quizzes[0]) then [quizzes[0]] else []) + KeepAll(quizzes[1..])
  }

  lemma {:induction false} KeepAllAppend(a: seq<QuizQuestion>, b: seq<QuizQuestion>)
    ensures KeepAll(a + b) == KeepAll(a) + KeepAll(b)
    decreases |a|
  {
    if |a| == 0 {
      assert a + b == b;
    } else {
      var head := if Keep(a[0]) then [a[0]] else [];
      calc {
        KeepAll(a + b);
        { assert (a + b)[0] == a[0] && (a + b)[1..] == a[1..] + b; }
        head + KeepAll(a[1..] + b);
        { KeepAllAppend(a[1..], b); }
        head + (KeepAll(a[1..]) + KeepAll(b));
        (head + KeepAll(a[1..])) + KeepAll(b);
      }
    }
  }

  /** `blocks.map(...).filter(...)`. */
  function ParseQuestionBlocks(blocks: seq<string>, ex: Extractors): (quizzes: seq<QuizQuestion>)
    ensures |quizzes| <= |blocks|
    ensures forall i :: 0 <= i < |quizzes| ==>
              quizzes[i].question != QuestionNotFound && |quizzes[i].options| >= MinOptions
  {
    KeepAll(NormaliseAll(blocks, ex))
  }

  /** Blocks are parsed independently and kept in order ... */
  lemma ParseQuestionBlocksAppend(a: seq<string>, b: seq<string>, ex: Extractors)
    ensures ParseQuestionBlocks(a + b, ex) == ParseQuestionBlocks(a, ex) + ParseQuestionBlocks(b, ex)
  {
    NormaliseAllAppend(a, b, ex);
    KeepAllAppend(NormaliseAll(a, ex), NormaliseAll(b, ex));
  }

  lemma NormaliseAllAppend(a: seq<string>, b: seq<string>, ex: Extractors)
    ensures NormaliseAll(a + b, ex) == NormaliseAll(a, ex) + NormaliseAll(b, ex)
  {
  }

  /** ... and a block is dropped exactly when its question is the text
      "Question not found": when it has no non-blank line, or when its first
      non-blank line reads exactly that. The options check never fires,
      since every block gets four options. */
  lemma ParseQuestionBlocksSingle(block: string, ex: Extractors)
    ensures ParseQuestionBlocks([block], ex)
            == if QuestionOf(block) != QuestionNotFound then [NormaliseBlock(block, ex)] else []
  {
    assert NormaliseAll([block], ex) == [NormaliseBlock(block, ex)];
    assert [NormaliseBlock(block, ex)][1..] == [];
  }
}

=== FILE: quiz_response.dfy ===
/** How the quiz tab turns the assistant's reply into quizzes: a direct JSON
    array, else a JSON array found inside the reply and validated item by
    item, else `parseQuestionBlocks` on the reply cut into blocks; and how a
    reply that none of these can read is fetched again, at most
    `MaxRetries` times.

    `JSON.parse`, the regular expressions that find, clean and split the
    reply, and the HTTP request are parameters: `Readers` and the sequence
    of `Attempt`s. */
module QuizResponse {
  import opened Text
  import opened Quiz

  /** A parsed JSON value. Numbers are integers here. */
  datatype Json =
    | JNull
    | JBool(b: bool)
    | JNumber(n: int)
    | JString(s: string)
    | JArray(items: seq<Json>)
    | JObject(fields: map<string, Json>)

  predicate HasString(fields: map<string, Json>, key: string) {
    key in fields && fields[key].JString?
  }

  predicate HasArray(fields: map<string, Json>, key: string) {
    key in fields && fields[key].JArray?
  }

  /** The item test of the cleaned-JSON path: an object whose `question` is
      a string, whose `options` is an array and whose `answer` is a string. */
  predicate IsValidQuiz(item: Json) {
    && item.JObject?
    && HasString(item.fields, "question")
    && HasArray(item.fields, "options")
    && HasString(item.fields, "answer")
  }

  function ValidQuizzes(items: seq<Json>): (valid: seq<Json>)
    ensures |valid| <= |items|
    ensures forall i :: 0 <= i < |valid| ==> IsValidQuiz(valid[i])
  {
    Filter(items, IsValidQuiz)
  }

  /** The filter keeps the valid items in their original order ... */
  lemma ValidQuizzesAppend(xs: seq<Json>, ys: seq<Json>)
    ensures ValidQuizzes(xs + ys) == ValidQuizzes(xs) + ValidQuizzes(ys)
  {
    FilterAppend(xs, ys, IsValidQuiz);
  }

  /** ... and drops exactly the invalid ones. */
  lemma ValidQuizzesSingle(item: Json)
    ensures ValidQuizzes([item]) == if IsValidQuiz(item) then [item] else []
  {
    FilterSingle(item, IsValidQuiz);
  }

  /** The steps taken as given:
      - `parse(text)`: `JSON.parse(text)`, `None` when it throws;
      - `embeddedArray(text)`: the first span of the text that starts with
        `[`, then `{`, and ends with `}`, then `]`, if there is one;
      - `clean(text)`: the chain of repairs applied to that span (trailing
        commas, escaped quotes, unquoted names and values);
      - `questionSplit(text)`: the text cut at every "Question n:" and at
        every line that starts with "n.";
      - `altSplit(text)`: the text cut at every newline followed by
        optional blanks, digits and "." or ")". */
  datatype Readers = Readers(
    parse: string -> Option<Json>,
    embeddedArray: string -> Option<string>,
    clean: string -> string,
    questionSplit: string -> seq<string>,
    altSplit: string -> seq<string>)

  /** What the quiz list is set to: raw JSON items or normalised blocks. */
  datatype Quizzes = FromJson(items: seq<Json>) | FromText(questions: seq<QuizQuestion>)

  function Count(quizzes: Quizzes): nat {
    match quizzes
    case FromJson(items) => |items|
    case FromText(questions) => |questions|
  }

  datatype Parse = Parsed(quizzes: Quizzes) | Unparsed(message: string)

  const NoBlocksMessage := "Could not parse quiz questions from response"
  const NoQuestionsMessage := "No quiz questions could be parsed from the response"

  predicate IsNonEmpty(part: string) {
    part != ""
  }

  /** `.filter(Boolean)` on the pieces of a split. */
  function NonEmpty(parts: seq<string>): (kept: seq<string>)
    ensures forall i :: 0 <= i < |kept| ==> kept[i] != ""
    ensures kept == [] <==> forall i :: 0 <= i < |parts| ==> parts[i] == ""
  {
    Filter(parts, IsNonEmpty)
  }

  /** First attempt: the whole reply parses as a non-empty array. */
  function DirectArray(response: string, readers: Readers): (items: Option<seq<Json>>)
    ensures items.Some? <==> readers.parse(response).Some? && readers.parse(response).value.JArray?
                              && |readers.parse(response).value.items| > 0
    ensures items.Some? ==> items.value == readers.parse(response).value.items
  {
    match readers.parse(response)
    case Some(JArray(items)) => if |items| > 0 then Some(items) else None
    case _ => None
  }

  /** Second attempt: the cleaned embedded array, reduced to its valid
      items. Every way this can fail (no array found, the cleaned text does
      not parse, it is not a non-empty array, no item is valid) leads on to
      the third attempt. */
  function EmbeddedQuizzes(response: string, readers: Readers): (valid: Option<seq<Json>>)
    ensures valid.Some? ==> |valid.value| > 0
    ensures valid.Some? ==> forall i :: 0 <= i < |valid.value| ==> IsValidQuiz(valid.value[i])
  {
    match readers.embeddedArray(response)
    case None => None
    case Some(found) =>
      match readers.parse(readers.clean(found))
      case Some(JArray(items)) =>
        var valid := ValidQuizzes(items);
        if |items| > 0 && |valid| > 0 then Some(valid) else None
      case _ => None
  }

  /** The embedded path yields exactly the valid items of the cleaned array,
      when there are any. */
  lemma EmbeddedQuizzesAreTheValidItems(response: string, readers: Readers, found: string, items: seq<Json>)
    requires readers.embeddedArray(response) == Some(found)
    requires readers.parse(readers.clean(found)) == Some(JArray(items))
    ensures EmbeddedQuizzes(response, readers).Some? <==> exists i :: 0 <= i < |items| && IsValidQuiz(items[i])
    ensures EmbeddedQuizzes(response, readers).Some? ==>
              EmbeddedQuizzes(response, readers).value == ValidQuizzes(items)
  {
    var valid := ValidQuizzes(items);
    assert |valid| > 0 <==> FirstWhere(items, IsValidQuiz) < |items|;
    if exists i :: 0 <= i < |items| && IsValidQuiz(items[i]) {
      var i :| 0 <= i < |items| && IsValidQuiz(items[i]);
      assert FirstWhere(items, IsValidQuiz) <= i;
    }
  }

  /** Third attempt: the question blocks, or failing any, the alternative
      blocks. */
  function ManualParse(response: string, readers: Readers, ex: Extractors): (result: Parse)
    ensures result.Parsed? ==> result.quizzes.FromText? && Count(result.quizzes) > 0
    ensures result.Parsed? ==> forall i :: 0 <= i < |result.quizzes.questions| ==>
              && result.quizzes.questions[i].question != QuestionNotFound
              && |result.quizzes.questions[i].options| >= MinOptions
    ensures var split := readers.questionSplit(response);
            result.Parsed? ==>
              result.quizzes.questions
              == if exists i :: 0 <= i < |split| && split[i] != ""
                 then ParseQuestionBlocks(NonEmpty(split), ex)
                 else ParseQuestionBlocks(NonEmpty(readers.altSplit(response)), ex)
  {
    var blocks := NonEmpty(readers.questionSplit(response));
    if |blocks| == 0 then
      var alt := NonEmpty(readers.altSplit(response));
      var fromAlt := ParseQuestionBlocks(alt, ex);
      if |alt| > 0 && |fromAlt| > 0 then Parsed(FromText(fromAlt)) else Unparsed(NoBlocksMessage)
    else
      var fromBlocks := ParseQuestionBlocks(blocks, ex);
      if |fromBlocks| > 0 then Parsed(FromText(fromBlocks)) else Unparsed(NoQuestionsMessage)
  }

  /** The two manual-parsing errors: with no question block at all the
      alternative split is tried and its failure reported as "could not
      parse"; with question blocks that all lack a question the alternative
      split is never tried. */
  lemma ManualParseErrors(response: string, readers: Readers, ex: Extractors)
    ensures var split := readers.questionSplit(response);
            ManualParse(response, readers, ex) == Unparsed(NoBlocksMessage)
            <==> && (forall i :: 0 <= i < |split| ==> split[i] == "")
                 && ParseQuestionBlocks(NonEmpty(readers.altSplit(response)), ex) == []
    ensures var split := readers.questionSplit(response);
            ManualParse(response, readers, ex) == Unparsed(NoQuestionsMessage)
            <==> && (exists i :: 0 <= i < |split| && split[i] != "")
                 && ParseQuestionBlocks(NonEmpty(split), ex) == []
  {
    assert NoBlocksMessage != NoQuestionsMessage;
    var alt := NonEmpty(readers.altSplit(response));
    if |alt| == 0 {
      assert ParseQuestionBlocks(alt, ex) == [];
    }
  }

  /** The whole cascade inside the parsing `try`. */
  function ParseResponse(response: string, readers: Readers, ex: Extractors): (result: Parse)
    ensures result.Parsed? ==> Count(result.quizzes) > 0
    ensures result.Unparsed? ==> result.message == NoBlocksMessage || result.message == NoQuestionsMessage
  {
    match DirectArray(response, readers)
    case Some(items) => Parsed(FromJson(items))
    case None =>
      match EmbeddedQuizzes(response, readers)
      case Some(valid) => Parsed(FromJson(valid))
      case None => ManualParse(response, readers, ex)
  }

  /** A reply that is itself a non-empty JSON array is taken as it stands. */
  lemma DirectArrayWins(response: string, readers: Readers, ex: Extractors, items: seq<Json>)
    requires readers.parse(response) == Some(JArray(items))
    requires |items| > 0
    ensures ParseResponse(response, readers, ex) == Parsed(FromJson(items))
  {
  }

  /** The direct path does not apply the item test of the cleaned path: a
      reply `[null]` becomes a quiz list holding `null`. */
  lemma DirectArrayIsNotValidated()
    ensures var readers := Readers(
              (text: string) => Some(JArray([JNull])),
              (text: string) => None,
              (text: string) => text,
              (text: string) => [],
              (text: string) => []);
            var result := ParseResponse("[null]", readers, Extractors([], (line: string) => None, [], []));
            result == Parsed(FromJson([JNull])) && !IsValidQuiz(result.quizzes.items[0])
  {
  }

  /** Quizzes that come from JSON found inside the reply are all valid. */
  lemma EmbeddedQuizzesAreValid(response: string, readers: Readers, ex: Extractors)
    requires DirectArray(response, readers).None?
    requires ParseResponse(response, readers, ex).Parsed?
    requires ParseResponse(response, readers, ex).quizzes.FromJson?
    ensures var items := ParseResponse(response, readers, ex).quizzes.items;
            forall i :: 0 <= i < |items| ==> IsValidQuiz(items[i])
  {
  }

  /** When the reply itself is not a non-empty array but holds one that
      cleans up and parses, the quizzes returned are exactly its valid
      items, in their original order, as long as there is one. */
  lemma EmbeddedPathReturnsValidItems(response: string, readers: Readers, ex: Extractors,
                                      found: string, items: seq<Json>)
    requires DirectArray(response, readers).None?
    requires readers.embeddedArray(response) == Some(found)
    requires readers.parse(readers.clean(found)) == Some(JArray(items))
    requires exists i :: 0 <= i < |items| && IsValidQuiz(items[i])
    ensures ParseResponse(response, readers, ex) == Parsed(FromJson(ValidQuizzes(items)))
  {
    EmbeddedQuizzesAreTheValidItems(response, readers, found, items);
  }

  /** What the regular-expression steps give on a reply that `JSON.parse`
      rejects, that holds no `[`, and that holds neither a "Question n:"
      marker nor a line opening with a number: no JSON, no embedded array,
      and a question split that keeps the reply whole. */
  predicate ReadsAsPlainText(readers: Readers, reply: string) {
    && readers.parse(reply).None?
    && readers.embeddedArray(reply).None?
    && readers.questionSplit(reply) == [reply]
  }

  /** The reply "Question not found" is read as one block whose question
      is that very text, so the filter drops it and nothing is parsed. */
  lemma QuestionNotFoundIsUnreadable(readers: Readers, ex: Extractors)
    requires ReadsAsPlainText(readers, QuestionNotFound)
    ensures ParseResponse(QuestionNotFound, readers, ex) == Unparsed(NoQuestionsMessage)
  {
    NotFoundBlockIsDropped(ex);
    FilterSingle(QuestionNotFound, IsNonEmpty);
  }

  /** The block "Question not found" is its own question, so it is dropped. */
  lemma NotFoundBlockIsDropped(ex: Extractors)
    ensures ParseQuestionBlocks([QuestionNotFound], ex) == []
  {
    NotFoundIsItsOwnQuestion();
    ParseQuestionBlocksSingle(QuestionNotFound, ex);
  }

  lemma NotFoundIsItsOwnQuestion()
    ensures QuestionOf(QuestionNotFound) == QuestionNotFound
  {
    var reply := QuestionNotFound;
    NotFoundIsPlain();
    SplitWithoutSeparator(reply, '\n');
    TrimOfTrimmed(reply);
    assert IsNonBlank(SplitOn(reply, '\n')[0]);
  }

  lemma NotFoundIsPlain()
    ensures '\n' !in QuestionNotFound
    ensures !IsWhitespace(QuestionNotFound[0]) && !IsWhitespace(QuestionNotFound[|QuestionNotFound| - 1])
  {
  }

  /** Whatever goes wrong on the first two paths, the manual parse decides. */
  lemma FallsThroughToManualParse(response: string, readers: Readers, ex: Extractors)
    requires DirectArray(response, readers).None?
    requires EmbeddedQuizzes(response, readers).None?
    ensures ParseResponse(response, readers, ex) == ManualParse(response, readers, ex)
  {
  }

  const MaxRetries: nat := 3

  /** The body of the API reply. An `error` or `response` that is absent
      (or empty, which JavaScript treats alike) is "". */
  datatype ApiData = ApiData(error: string, failed: bool, response: string)

  /** One request: it either threw before a body was read (the message of
      that error), or it came back with an HTTP verdict and a body. */
  datatype Attempt =
    | Threw(message: string)
    | Answered(ok: bool, status: nat, data: ApiData)

  datatype Outcome = Loaded(quizzes: Quizzes) | Errored(message: string)

  /** What one attempt leads to: an outcome, or a new attempt. */
  datatype Step = Done(outcome: Outcome) | Retry

  const ParseErrorPrefix := "Error parsing quiz questions: "
  const StatusLead := "Failed to fetch quizzes (Status "
  const GenerateFailure := "Failed to generate quizzes"
  const NoContent := "No quiz content received from API"
  const NoDocument := "No document selected"

  function StatusMessage(status: nat): string {
    StatusLead + NatToString(status) + ")"
  }

  /** The checks made on a request before its reply is parsed: the error
      they raise, if any. A reply whose `trim()` is empty is one that is
      all whitespace (`IsBlank`, by the contract of `Trim`). */
  function RequestError(attempt: Attempt): (error: Option<string>)
    ensures error.None? <==> && attempt.Answered? && attempt.ok
                             && !attempt.data.failed && attempt.data.error == ""
                             && !IsBlank(attempt.data.response)
  {
    match attempt
    case Threw(message) => Some(message)
    case Answered(ok, status, data) =>
      if !ok then
        Some(if data.error != "" then data.error else StatusMessage(status))
      else if data.failed || data.error != "" then
        Some(if data.error != "" then data.error else GenerateFailure)
      else if IsBlank(data.response) then
        Some(NoContent)
      else None
  }

  /** One run of `fetchQuizzes` with the given retry count; `read` is the
      parsing cascade (`ParseResponse` in `LoadQuizzes`). */
  function AttemptStep(attempt: Attempt, retryCount: nat, read: string -> Parse): (step: Step)
    ensures step.Retry? <==> && retryCount < MaxRetries
                             && RequestError(attempt).None?
                             && read(attempt.data.response).Unparsed?
    ensures RequestError(attempt).Some? ==> step == Done(Errored(RequestError(attempt).value))
    ensures step.Done? && step.outcome.Loaded? ==>
              RequestError(attempt).None? && read(attempt.data.response) == Parsed(step.outcome.quizzes)
  {
    match RequestError(attempt)
    case Some(error) => Done(Errored(error))
    case None =>
      match read(attempt.data.response)
      case Parsed(quizzes) => Done(Loaded(quizzes))
      case Unparsed(message) =>
        if retryCount < MaxRetries then Retry else Done(Errored(ParseErrorPrefix + message))
  }

  /** The result of loading: the final state and how many requests it took. */
  datatype Session = Session(outcome: Outcome, fetches: nat)

  /** `fetchQuizzes` from `retryCount` on; `attempts(r)` is what the request
      made with retry count `r` returns. */
  function FetchQuizzes(attempts: nat -> Attempt, read: string -> Parse, retryCount: nat): (session: Session)
    ensures session.fetches >= 1
    ensures retryCount <= MaxRetries ==> session.fetches <= MaxRetries - retryCount + 1
    ensures retryCount >= MaxRetries ==> session.fetches == 1
    decreases if retryCount < MaxRetries then MaxRetries - retryCount else 0
  {
    match AttemptStep(attempts(retryCount), retryCount, read)
    case Done(outcome) => Session(outcome, 1)
    case Retry =>
      var rest := FetchQuizzes(attempts, read, retryCount + 1);
      Session(rest.outcome, rest.fetches + 1)
  }

  /** The quizzes loaded are quizzes some request's reply was read as. */
  lemma {:induction false} LoadedComesFromSomeReply(attempts: nat -> Attempt, read: string -> Parse, retryCount: nat)
    ensures var session := FetchQuizzes(attempts, read, retryCount);
            session.outcome.Loaded? ==>
              var attempt := attempts(retryCount + session.fetches - 1);
              RequestError(attempt).None? && read(attempt.data.response) == Parsed(session.outcome.quizzes)
    decreases if retryCount < MaxRetries then MaxRetries - retryCount else 0
  {
    var step := AttemptStep(attempts(retryCount), retryCount, read);
    var session := FetchQuizzes(attempts, read, retryCount);
    if step.Retry? {
      var rest := FetchQuizzes(attempts, read, retryCount + 1);
      assert session == Session(rest.outcome, rest.fetches + 1);
      LoadedComesFromSomeReply(attempts, read, retryCount + 1);
      assert retryCount + session.fetches - 1 == retryCount + 1 + rest.fetches - 1;
    } else {
      assert session == Session(step.outcome, 1);
    }
  }

  function Reader(readers: Readers, ex: Extractors): string -> Parse {
    (text: string) => ParseResponse(text, readers, ex)
  }

  /** The effect: nothing is fetched without a document, and whatever is
      loaded is a non-empty quiz list. */
  function LoadQuizzes(documentId: string, attempts: nat -> Attempt, readers: Readers, ex: Extractors): (session: Session)
    ensures documentId == "" <==> session == Session(Errored(NoDocument), 0)
    ensures session.outcome.Loaded? ==> Count(session.outcome.quizzes) > 0
  {
    if documentId == "" then Session(Errored(NoDocument), 0)
    else
      LoadedComesFromSomeReply(attempts, Reader(readers, ex), 0);
      FetchQuizzes(attempts, Reader(readers, ex), 0)
  }

  /** The request made with retry count `r` came back well but its reply
      could not be read. */
  ghost predicate UnreadableAt(attempts: nat -> Attempt, read: string -> Parse, r: nat) {
    RequestError(attempts(r)).None? && read(attempts(r).data.response).Unparsed?
  }

  /** A reply that stays unreadable is requested once and retried
      `MaxRetries` times, and the last parse error is reported. */
  lemma {:induction false} PersistentParseFailure(attempts: nat -> Attempt, read: string -> Parse, retryCount: nat)
    requires retryCount <= MaxRetries
    requires forall r: nat :: retryCount <= r <= MaxRetries ==> UnreadableAt(attempts, read, r)
    ensures UnreadableAt(attempts, read, MaxRetries)
    ensures FetchQuizzes(attempts, read, retryCount)
            == Session(Errored(ParseErrorPrefix + read(attempts(MaxRetries).data.response).message),
                       MaxRetries - retryCount + 1)
    decreases MaxRetries - retryCount
  {
    assert UnreadableAt(attempts, read, retryCount);
    if retryCount < MaxRetries {
      PersistentParseFailure(attempts, read, retryCount + 1);
    }
  }

  /** From a fresh start that is four requests. */
  lemma UnreadableRepliesFetchFourTimes(attempts: nat -> Attempt, read: string -> Parse)
    requires forall r: nat :: r <= MaxRetries ==> UnreadableAt(attempts, read, r)
    ensures FetchQuizzes(attempts, read, 0).fetches == 4
    ensures FetchQuizzes(attempts, read, 0).outcome.Errored?
  {
    PersistentParseFailure(attempts, read, 0);
  }

  /** A retry that reads the reply ends the loading with those quizzes. */
  lemma {:induction false} RetryRecovers(attempts: nat -> Attempt, read: string -> Parse,
                                         retryCount: nat, k: nat, quizzes: Quizzes)
    requires retryCount <= k <= MaxRetries
    requires forall r: nat :: retryCount <= r < k ==> UnreadableAt(attempts, read, r)
    requires RequestError(attempts(k)).None?
    requires read(attempts(k).data.response) == Parsed(quizzes)
    ensures FetchQuizzes(attempts, read, retryCount) == Session(Loaded(quizzes), k - retryCount + 1)
    decreases k - retryCount
  {
    if retryCount < k {
      assert UnreadableAt(attempts, read, retryCount);
      RetryRecovers(attempts, read, retryCount + 1, k, quizzes);
    }
  }

  /** Only an unreadable reply is retried: a request that threw, an error
      status or an empty reply ends the loading at once with its error. */
  lemma RequestErrorsAreNotRetried(attempts: nat -> Attempt, read: string -> Parse, retryCount: nat)
    requires var attempt := attempts(retryCount);
             || attempt.Threw?
             || !attempt.ok
             || attempt.data.failed
             || attempt.data.error != ""
             || IsBlank(attempt.data.response)
    ensures FetchQuizzes(attempts, read, retryCount)
            == Session(Errored(RequestError(attempts(retryCount)).value), 1)
  {
  }

  /** Which message an unsuccessful request reports. */
  lemma RequestErrorMessages(attempt: Attempt)
    requires attempt.Answered?
    ensures attempt.data.error != "" ==> RequestError(attempt) == Some(attempt.data.error)
    ensures !attempt.ok && attempt.data.error == "" ==> RequestError(attempt) == Some(StatusMessage(attempt.status))
    ensures attempt.ok && attempt.data.failed && attempt.data.error == "" ==> RequestError(attempt) == Some(GenerateFailure)
    ensures attempt.ok && !attempt.data.failed && attempt.data.error == "" && IsBlank(attempt.data.response) ==>
              RequestError(attempt) == Some(NoContent)
  {
  }
}

=== FILE: splitter.dfy ===
/** The boundary-aware splitter of `processContentInChunks`: cuts a long
    transcription into consecutive chunks of about `ChunkSize` characters,
    backing off from the hard cut to a paragraph break, a line break or a
    sentence end when one lies close enough before it. */
module Splitter {
  import opened Text

  const ChunkSize: nat := 8000
  /** How far before the hard cut each kind of boundary is looked for. */
  const ParagraphReach: nat := 500
  const LineReach: nat := 200
  const SentenceReach: nat := 100

  const ParagraphBreak := "\n\n"
  const LineBreak := "\n"
  const SentenceEnd := ". "

  /** `Math.min(startIndex + chunkSize, content.length)`. */
  function HardCut(content: string, start: nat): (end: nat)
    requires start < |content|
    ensures start < end <= |content|
    ensures end - start <= ChunkSize
    ensures end == |content| <==> |content| - start <= ChunkSize
    ensures end == |content| || end == start + ChunkSize
  {
    if start + ChunkSize < |content| then start + ChunkSize else |content|
  }

  /** The last occurrence of `pat` strictly after `lo` and at or before `hi`. */
  ghost predicate IsLastIn(content: string, pat: string, lo: int, hi: int, p: int) {
    && lo < p <= hi
    && MatchAt(content, pat, p)
    && forall j :: p < j <= hi ==> !MatchAt(content, pat, j)
  }

  ghost predicate NoneIn(content: string, pat: string, lo: int, hi: int) {
    forall j :: lo < j <= hi ==> !MatchAt(content, pat, j)
  }

  function Max(a: int, b: int): int { if a < b then b else a }

  /** Where the chunk starting at `start` ends: the `endIndex` the loop body
      settles on. */
  function BreakPoint(content: string, start: nat): (end: nat)
    requires start < |content|
    ensures start < end <= |content|
    ensures end - start <= ChunkSize + 1
    ensures end == |content| <==> |content| - start <= ChunkSize
    ensures end - start == ChunkSize + 1 ==> MatchAt(content, SentenceEnd, end - 1)
  {
    var cut := HardCut(content, start);
    if cut < |content| then
      var paragraph := LastIndexOf(content, ParagraphBreak, cut);
      if paragraph > start && paragraph > cut - ParagraphReach then paragraph
      else
        var line := LastIndexOf(content, LineBreak, cut);
        if line > start && line > cut - LineReach then line
        else
          var sentence := LastIndexOf(content, SentenceEnd, cut);
          if sentence > start && sentence > cut - SentenceReach then sentence + 1
          else cut
    else cut
  }

  /** The break is chosen by priority: the last paragraph break within
      `ParagraphReach` of the hard cut, else the last line break within
      `LineReach`, else just after the period of the last sentence end within
      `SentenceReach`, else the hard cut; a window that reaches the end of the
      text is taken whole. No candidate may sit at or before `start`. */
  lemma BreakPointPriority(content: string, start: nat)
    requires start < |content|
    ensures var cut := HardCut(content, start);
            var end := BreakPoint(content, start);
            var paraLo := Max(start, cut - ParagraphReach);
            var lineLo := Max(start, cut - LineReach);
            var sentLo := Max(start, cut - SentenceReach);
            if cut == |content| then end == cut
            else if !NoneIn(content, ParagraphBreak, paraLo, cut) then
              IsLastIn(content, ParagraphBreak, paraLo, cut, end)
            else if !NoneIn(content, LineBreak, lineLo, cut) then
              IsLastIn(content, LineBreak, lineLo, cut, end)
            else if !NoneIn(content, SentenceEnd, sentLo, cut) then
              IsLastIn(content, SentenceEnd, sentLo, cut, end - 1)
            else end == cut
  {
  }

  /** A chunk reaches `ChunkSize + 1` characters exactly when the hard cut
      falls on the period of a ". " and neither a paragraph break nor a line
      break is close enough before it. */
  lemma OversizeChunk(content: string, start: nat)
    requires start < |content|
    ensures var cut := start + ChunkSize;
            BreakPoint(content, start) - start == ChunkSize + 1
            <==> && cut < |content|
                 && MatchAt(content, SentenceEnd, cut)
                 && NoneIn(content, ParagraphBreak, Max(start, cut - ParagraphReach), cut)
                 && NoneIn(content, LineBreak, Max(start, cut - LineReach), cut)
  {
    BreakPointPriority(content, start);
    var cut := start + ChunkSize;
    if cut < |content| && MatchAt(content, SentenceEnd, cut) {
      assert content[cut] == content[cut..cut + 2][0] == '.';
      assert !MatchAt(content, LineBreak, cut) by {
        assert content[cut..cut + 1][0] == content[cut];
      }
    }
  }

  /** The chunks the loop produces from `start` on. */
  function SplitFrom(content: string, start: nat): (chunks: seq<string>)
    requires start <= |content|
    ensures Concat(chunks) == content[start..]
    ensures forall i :: 0 <= i < |chunks| ==> 0 < |chunks[i]| <= ChunkSize + 1
    ensures |chunks| > 0 ==> |chunks[|chunks| - 1]| <= ChunkSize
    ensures start < |content| ==> |content| - start < 8001 * |chunks|
    ensures start == |content| <==> chunks == []
    decreases |content| - start
  {
    if start == |content| then []
    else
      var end := BreakPoint(content, start);
      var rest := SplitFrom(content, end);
      var chunks := [content[start..end]] + rest;
      assert chunks[1..] == rest;
      assert content[start..] == content[start..end] + content[end..];
      chunks
  }

  /** The chunk list `processContentInChunks` builds for `content`. */
  function Chunks(content: string): seq<string> {
    SplitFrom(content, 0)
  }

  /** Splitting loses, duplicates and reorders nothing. */
  lemma ChunksAreLossless(content: string)
    ensures Concat(Chunks(content)) == content
  {
    assert content[0..] == content;
  }

  /** Text that fits in one window is a single chunk. */
  lemma ShortTextIsOneChunk(content: string)
    requires 0 < |content| <= ChunkSize
    ensures Chunks(content) == [content]
  {
    assert content[0..|content|] == content;
  }

  /** The `while (startIndex < content.length)` loop as written. */
  method SplitContent(content: string) returns (chunks: seq<string>)
    ensures chunks == Chunks(content)
    ensures Concat(chunks) == content
    ensures forall i :: 0 <= i < |chunks| ==> 0 < |chunks[i]| <= ChunkSize + 1
  {
    chunks := [];
    var startIndex := 0;
    while startIndex < |content|
      invariant 0 <= startIndex <= |content|
      invariant chunks + SplitFrom(content, startIndex) == SplitFrom(content, 0)
      decreases |content| - startIndex
    {
      var endIndex := BreakPoint(content, startIndex);
      var chunk := content[startIndex..endIndex];
      assert SplitFrom(content, startIndex) == [chunk] + SplitFrom(content, endIndex);
      AppendAssoc(chunks, [chunk], SplitFrom(content, endIndex));
      chunks := chunks + [chunk];
      startIndex := endIndex;
    }
    assert content[0..] == content;
  }

  lemma AppendAssoc<T>(a: seq<T>, b: seq<T>, c: seq<T>)
    ensures a + (b + c) == (a + b) + c
  {
  }
}

=== FILE: stale_retry.dfy ===
/** The retry as the component actually schedules it. `fetchQuizzes` is a
    closure over the `retryCount` of the render that created it, and the
    effect that creates it lists `retryCount` among its dependencies and
    has no cleanup. So a run that cannot read its reply, with a captured
    count below `MaxRetries`, both
      - increments the state (`setRetryCount(prev => prev + 1)`), which
        re-renders and re-runs the effect: a fresh run with the new count;
      - arms a timer that calls its own closure again, captured count
        unchanged.
    The state only grows, but a closure that captured 0 keeps its 0 and
    re-arms itself on every failure.

    Each run is taken as one atomic step (request, checks, parse, state
    updates); `schedule` says which pending run goes next, so every
    interleaving of timers and effect runs is covered. */
module StaleRetry {
  import opened Text
  import opened Quiz
  import opened QuizResponse

  /** What the component shows: the quizzes last loaded (`None` for the
      initial empty list) and the error message, if any. */
  datatype Screen = Screen(quizzes: Option<Quizzes>, error: Option<string>)

  /** The component between runs: the `retryCount` state, the captured
      counts of the runs waiting to start (effect runs and timers), how
      many requests have been made, and the screen. */
  datatype World = World(retryCount: nat, pending: seq<nat>, requests: nat, screen: Screen)

  /** Mounting with a document: the state is 0 and the effect's first run
      is pending. */
  const Mount := World(0, [0], 0, Screen(None, None))

  /** One pending run, the `pick`-th (modulo the number pending), starts,
      makes request number `requests` and finishes (`TickEffect` says how). */
  function Tick(world: World, attempts: nat -> Attempt, read: string -> Parse, pick: nat): (next: World)
    requires |world.pending| > 0
    ensures next.requests == world.requests + 1
  {
    var i := pick % |world.pending|;
    var captured := world.pending[i];
    var rest := world.pending[..i] + world.pending[i + 1..];
    var requests := world.requests + 1;
    match AttemptStep(attempts(world.requests), captured, read)
    case Retry =>
      var count := world.retryCount + 1;
      World(count, rest + [count, captured], requests, Screen(world.screen.quizzes, None))
    case Done(Loaded(quizzes)) =>
      World(world.retryCount, rest, requests, Screen(Some(quizzes), None))
    case Done(Errored(message)) =>
      World(world.retryCount, rest, requests, Screen(world.screen.quizzes, Some(message)))
  }

  /** The run clears the error first (`setError(null)`). A run that cannot
      read its reply and may retry bumps the state and leaves two runs
      pending: the effect's, with the new count, and its own timer, with
      its own captured count. Any other run leaves the queue; loaded
      quizzes replace the shown ones, and an error is shown. */
  lemma TickEffect(world: World, attempts: nat -> Attempt, read: string -> Parse, pick: nat)
    requires |world.pending| > 0
    ensures var next := Tick(world, attempts, read, pick);
            var captured := world.pending[pick % |world.pending|];
            match AttemptStep(attempts(world.requests), captured, read)
            case Retry =>
              && next.retryCount == world.retryCount + 1
              && |next.pending| == |world.pending| + 1
              && next.pending[|next.pending| - 2] == next.retryCount
              && next.pending[|next.pending| - 1] == captured
              && next.screen.error.None?
            case Done(Loaded(quizzes)) =>
              && next.retryCount == world.retryCount
              && |next.pending| == |world.pending| - 1
              && next.screen == Screen(Some(quizzes), None)
            case Done(Errored(message)) =>
              && next.retryCount == world.retryCount
              && |next.pending| == |world.pending| - 1
              && next.screen == Screen(world.screen.quizzes, Some(message))
  {
  }

  /** Up to `steps` runs, `schedule(n)` choosing the run that makes request
      `n`; it stops early once nothing is pending. */
  function Run(world: World, attempts: nat -> Attempt, read: string -> Parse,
               schedule: nat -> nat, steps: nat): (last: World)
    ensures world.requests <= last.requests <= world.requests + steps
    ensures last.requests < world.requests + steps ==> last.pending == []
    decreases steps
  {
    if steps == 0 || |world.pending| == 0 then world
    else Run(Tick(world, attempts, read, schedule(world.requests)), attempts, read, schedule, steps - 1)
  }

  /** Some pending run captured a count that still allows a retry. */
  predicate CanRetry(world: World) {
    exists j :: 0 <= j < |world.pending| && world.pending[j] < MaxRetries
  }

  /** While every reply is unreadable, a run that could retry never leaves
      the queue for good, so one such run is always pending. */
  lemma TickKeepsRetrying(world: World, attempts: nat -> Attempt, read: string -> Parse, pick: nat)
    requires CanRetry(world)
    requires UnreadableAt(attempts, read, world.requests)
    ensures CanRetry(Tick(world, attempts, read, pick))
  {
    var j :| 0 <= j < |world.pending| && world.pending[j] < MaxRetries;
    var i := pick % |world.pending|;
    var captured := world.pending[i];
    var rest := world.pending[..i] + world.pending[i + 1..];
    var next := Tick(world, attempts, read, pick);
    TickEffect(world, attempts, read, pick);
    if captured < MaxRetries {
      assert next.pending[|next.pending| - 1] < MaxRetries;
    } else {
      assert next.pending == rest;
      if j < i {
        assert rest[j] == world.pending[j];
      } else {
        assert j > i;
        assert rest[j - 1] == world.pending[j];
      }
    }
  }

  /** Hence, under unreadable replies, every step makes a request: the
      runs never die out, whatever the order they run in. */
  lemma {:induction false} UnreadableRepliesNeverStop(world: World, attempts: nat -> Attempt, read: string -> Parse,
                                                     schedule: nat -> nat, steps: nat)
    requires CanRetry(world)
    requires forall n: nat :: UnreadableAt(attempts, read, n)
    ensures Run(world, attempts, read, schedule, steps).requests == world.requests + steps
    decreases steps
  {
    if steps > 0 {
      var next := Tick(world, attempts, read, schedule(world.requests));
      TickKeepsRetrying(world, attempts, read, schedule(world.requests));
      UnreadableRepliesNeverStop(next, attempts, read, schedule, steps - 1);
    }
  }

  /** A backend that always answers 200 with the reply "Question not found". */
  function AlwaysNotFound(n: nat): Attempt {
    Answered(true, 200, ApiData("", false, QuestionNotFound))
  }

  /** Every such reply passes the request checks and is not read. */
  lemma NotFoundRepliesAreUnreadable(readers: Readers, ex: Extractors)
    requires ReadsAsPlainText(readers, QuestionNotFound)
    ensures forall n: nat :: UnreadableAt(AlwaysNotFound, Reader(readers, ex), n)
  {
    var read := Reader(readers, ex);
    QuestionNotFoundIsUnreadable(readers, ex);
    assert read(QuestionNotFound).Unparsed?;
    forall n: nat ensures UnreadableAt(AlwaysNotFound, read, n) {
      NotFoundPassesChecks(n);
    }
  }

  /** The reply "Question not found" is not blank, so it passes the checks. */
  lemma NotFoundPassesChecks(n: nat)
    ensures RequestError(AlwaysNotFound(n)).None?
  {
    assert !IsWhitespace(QuestionNotFound[0]);
  }

  /** For any bound, a backend that keeps answering "Question not found"
      makes the mounted component, reading with the modelled cascade, send
      more requests than that, in every order the pending runs can take,
      where the retry limit promises at most four. */
  lemma RequestsAreUnbounded(readers: Readers, ex: Extractors, bound: nat, schedule: nat -> nat)
    requires ReadsAsPlainText(readers, QuestionNotFound)
    ensures FetchQuizzes(AlwaysNotFound, Reader(readers, ex), 0).fetches == 4
    ensures Run(Mount, AlwaysNotFound, Reader(readers, ex), schedule, bound + 1).requests > bound
  {
    var read := Reader(readers, ex);
    NotFoundRepliesAreUnreadable(readers, ex);
    assert Mount.pending[0] < MaxRetries;
    UnreadableRepliesFetchFourTimes(AlwaysNotFound, read);
    UnreadableRepliesNeverStop(Mount, AlwaysNotFound, read, schedule, bound + 1);
  }
}

=== FILE: text.dfy ===
/** String primitives with the JavaScript semantics the pipeline relies on:
    `lastIndexOf`, `includes`, `toLowerCase`, `trim`, `split` on one
    character, `Array.prototype.join`, and the decimal rendering of a
    number inside a template literal. */
module Text {

  datatype Option<+T> = None | Some(value: T)

  /** `pat` occurs in `s` starting at index `i`. */
  predicate MatchAt(s: string, pat: string, i: int) {
    0 <= i && i + |pat| <= |s| && s[i..i + |pat|] == pat
  }

  /** The last match at an index between 0 and `i` (inclusive), or -1. */
  function LastMatchFrom(s: string, pat: string, i: int): (r: int)
    ensures -1 <= r <= i || (i < 0 && r == -1)
    ensures r >= 0 ==> MatchAt(s, pat, r)
    ensures forall j :: r < j <= i ==> !MatchAt(s, pat, j)
    decreases i
  {
    if i < 0 then -1
    else if MatchAt(s, pat, i) then i
    else LastMatchFrom(s, pat, i - 1)
  }

  /** `s.lastIndexOf(pat, pos)`: the greatest index not beyond `pos` at which
      `pat` occurs, or -1 when there is none. */
  function LastIndexOf(s: string, pat: string, pos: nat): (r: int)
    ensures -1 <= r <= pos
    ensures r >= 0 ==> MatchAt(s, pat, r)
    ensures forall j :: r < j <= pos ==> !MatchAt(s, pat, j)
  {
    var from := if pos <= |s| - |pat| then pos else |s| - |pat|;
    LastMatchFrom(s, pat, from)
  }

  /** `s.includes(pat)`. */
  function Contains(s: string, pat: string): (b: bool)
    ensures b <==> exists i :: MatchAt(s, pat, i)
  {
    var r := LastIndexOf(s, pat, |s|);
    assert forall i :: MatchAt(s, pat, i) ==> i <= |s|;
    r >= 0
  }

  /** ASCII case mapping of `toLowerCase`. */
  function LowerChar(c: char): char {
    if 'A' <= c <= 'Z' then (c as int + 32) as char else c
  }

  function ToLower(s: string): string {
    seq(|s|, i requires 0 <= i < |s| => LowerChar(s[i]))
  }

  /** The characters `String.prototype.trim` removes: the ECMAScript
      WhiteSpace and LineTerminator code points. */
  predicate IsWhitespace(c: char) {
    || c == ' ' || c == '\t' || c == '\n' || c == '\r'
    || c == '\U{000B}' || c == '\U{000C}' || c == '\U{00A0}' || c == '\U{FEFF}'
    || c == '\U{1680}' || ('\U{2000}' <= c <= '\U{200A}')
    || c == '\U{2028}' || c == '\U{2029}' || c == '\U{202F}' || c == '\U{205F}'
    || c == '\U{3000}'
  }

  predicate IsBlank(s: string) {
    forall k :: 0 <= k < |s| ==> IsWhitespace(s[k])
  }

  predicate BlankBetween(s: string, lo: int, hi: int) {
    forall k :: lo <= k < hi && 0 <= k < |s| ==> IsWhitespace(s[k])
  }

  /** The first index at or after `i` holding a non-whitespace character. */
  function SkipBlanksForward(s: string, i: nat): (a: nat)
    requires i <= |s|
    ensures i <= a <= |s|
    ensures BlankBetween(s, i, a)
    ensures a < |s| ==> !IsWhitespace(s[a])
    decreases |s| - i
  {
    if i < |s| && IsWhitespace(s[i]) then SkipBlanksForward(s, i + 1) else i
  }

  /** The index just past the last non-whitespace character below `j`,
      looking no lower than `lo`. */
  function SkipBlanksBackward(s: string, lo: nat, j: nat): (b: nat)
    requires lo <= j <= |s|
    ensures lo <= b <= j
    ensures BlankBetween(s, b, j)
    ensures b > lo ==> !IsWhitespace(s[b - 1])
    decreases j
  {
    if j > lo && IsWhitespace(s[j - 1]) then SkipBlanksBackward(s, lo, j - 1) else j
  }

  /** `s.trim()`: the factor of `s` left once the whitespace on both ends
      is removed. */
  function Trim(s: string): (r: string)
    ensures r == [] <==> IsBlank(s)
    ensures r != [] ==> !IsWhitespace(r[0]) && !IsWhitespace(r[|r| - 1])
    ensures exists i :: MatchAt(s, r, i) && BlankBetween(s, 0, i) && BlankBetween(s, i + |r|, |s|)
  {
    var a := SkipBlanksForward(s, 0);
    var b := SkipBlanksBackward(s, a, |s|);
    assert MatchAt(s, s[a..b], a);
    assert b == a ==> BlankBetween(s, 0, |s|);
    s[a..b]
  }

  /** `s.split(sep)` for a one-character separator: never empty, and the
      pieces hold no separator. */
  function SplitOn(s: string, sep: char): (parts: seq<string>)
    ensures |parts| >= 1
    ensures Join(parts, [sep]) == s
    ensures forall i :: 0 <= i < |parts| ==> sep !in parts[i]
    decreases |s|
  {
    if |s| == 0 then [""]
    else
      var rest := SplitOn(s[1..], sep);
      if s[0] == sep then
        assert s == [sep] + s[1..];
        [""] + rest
      else
        var first := [s[0]] + rest[0];
        var parts := [first] + rest[1..];
        JoinCons(rest[0], rest[1..], [sep]);
        JoinCons(first, rest[1..], [sep]);
        assert rest == [rest[0]] + rest[1..];
        assert s == [s[0]] + s[1..];
        parts
  }

  /** Text without the separator splits into itself alone. */
  lemma SplitWithoutSeparator(s: string, sep: char)
    requires sep !in s
    ensures SplitOn(s, sep) == [s]
  {
    if |SplitOn(s, sep)| > 1 {
      assert false;
    }
  }

  /** Text with no whitespace at either end is its own `trim()`. */
  lemma TrimOfTrimmed(s: string)
    requires |s| > 0 && !IsWhitespace(s[0]) && !IsWhitespace(s[|s| - 1])
    ensures Trim(s) == s
  {
    var r := Trim(s);
    assert !IsBlank(s);
    var i :| MatchAt(s, r, i) && BlankBetween(s, 0, i) && BlankBetween(s, i + |r|, |s|);
    assert i == 0;
    assert i + |r| == |s|;
    assert s[0..|s|] == s;
  }

  /** `parts.join(sep)`. */
  function Join(parts: seq<string>, sep: string): string
    decreases |parts|
  {
    if |parts| == 0 then ""
    else if |parts| == 1 then parts[0]
    else parts[0] + sep + Join(parts[1..], sep)
  }

  lemma JoinCons(head: string, tail: seq<string>, sep: string)
    ensures Join([head] + tail, sep) == head + (if |tail| == 0 then "" else sep + Join(tail, sep))
  {
    assert ([head] + tail)[1..] == tail;
  }

  /** The index in `Join(parts, sep)` at which `parts[k]` starts. */
  function JoinOffset(parts: seq<string>, sep: string, k: nat): nat
    requires k <= |parts|
    decreases k
  {
    if k == 0 then 0 else |parts[0]| + |sep| + JoinOffset(parts[1..], sep, k - 1)
  }

  /** `Join` places `parts[k]` at its offset. */
  lemma {:induction false} JoinPlacesPart(parts: seq<string>, sep: string, k: nat)
    requires k < |parts|
    ensures JoinOffset(parts, sep, k) + |parts[k]| <= |Join(parts, sep)|
    ensures MatchAt(Join(parts, sep), parts[k], JoinOffset(parts, sep, k))
    decreases k
  {
    if |parts| > 1 {
      var tail := parts[1..];
      var jt := Join(tail, sep);
      assert Join(parts, sep) == (parts[0] + sep) + jt;
      if k == 0 {
        MatchAtExtend(parts[0], sep + jt, parts[0], 0);
        assert parts[0] + (sep + jt) == (parts[0] + sep) + jt;
      } else {
        JoinPlacesPart(tail, sep, k - 1);
        assert tail[k - 1] == parts[k];
        MatchAtShift(parts[0] + sep, jt, parts[k], JoinOffset(tail, sep, k - 1));
      }
    }
  }

  /** Between `parts[k]` and `parts[k + 1]` the join holds exactly one `sep`. */
  lemma {:induction false} JoinPlacesSeparator(parts: seq<string>, sep: string, k: nat)
    requires k + 1 < |parts|
    ensures MatchAt(Join(parts, sep), sep, JoinOffset(parts, sep, k) + |parts[k]|)
    ensures JoinOffset(parts, sep, k + 1) == JoinOffset(parts, sep, k) + |parts[k]| + |sep|
    decreases k
  {
    var tail := parts[1..];
    var jt := Join(tail, sep);
    assert Join(parts, sep) == (parts[0] + sep) + jt;
    if k == 0 {
      MatchAtShift(parts[0], sep, sep, 0);
      MatchAtExtend(parts[0] + sep, jt, sep, |parts[0]|);
      assert JoinOffset(parts, sep, 1) == |parts[0]| + |sep| + JoinOffset(tail, sep, 0);
    } else {
      JoinPlacesSeparator(tail, sep, k - 1);
      assert tail[k - 1] == parts[k];
      MatchAtShift(parts[0] + sep, jt, sep, JoinOffset(tail, sep, k - 1) + |parts[k]|);
    }
  }

  /** The last part ends the join. */
  lemma {:induction false} JoinEndsWithLast(parts: seq<string>, sep: string)
    requires |parts| > 0
    ensures JoinOffset(parts, sep, |parts| - 1) + |parts[|parts| - 1]| == |Join(parts, sep)|
    decreases |parts|
  {
    if |parts| > 1 {
      var tail := parts[1..];
      JoinEndsWithLast(tail, sep);
      assert tail[|tail| - 1] == parts[|parts| - 1];
    }
  }

  /** After a fixed `prefix`, the join still shows every part at its offset
      (moved by the prefix) and one separator after each part but the last. */
  lemma JoinAfterPrefix(prefix: string, parts: seq<string>, sep: string, k: nat)
    requires k < |parts|
    ensures MatchAt(prefix + Join(parts, sep), parts[k], |prefix| + JoinOffset(parts, sep, k))
    ensures k + 1 < |parts| ==>
              MatchAt(prefix + Join(parts, sep), sep, |prefix| + JoinOffset(parts, sep, k) + |parts[k]|)
              && JoinOffset(parts, sep, k + 1) == JoinOffset(parts, sep, k) + |parts[k]| + |sep|
  {
    JoinPlacesPart(parts, sep, k);
    MatchAtShift(prefix, Join(parts, sep), parts[k], JoinOffset(parts, sep, k));
    if k + 1 < |parts| {
      JoinPlacesSeparator(parts, sep, k);
      MatchAtShift(prefix, Join(parts, sep), sep, JoinOffset(parts, sep, k) + |parts[k]|);
    }
  }

  /** A match inside `b` is a match inside `a + b`, moved by `|a|`. */
  lemma MatchAtShift(a: string, b: string, pat: string, i: int)
    requires MatchAt(b, pat, i)
    ensures MatchAt(a + b, pat, |a| + i)
  {
    assert (a + b)[|a| + i..|a| + i + |pat|] == b[i..i + |pat|];
  }

  /** A match inside `a` is a match inside `a + b`. */
  lemma MatchAtExtend(a: string, b: string, pat: string, i: int)
    requires MatchAt(a, pat, i)
    ensures MatchAt(a + b, pat, i)
  {
    assert (a + b)[i..i + |pat|] == a[i..i + |pat|];
  }

  /** Concatenation of all pieces, in order (`pieces.join('')`). */
  function Concat(pieces: seq<string>): string
    decreases |pieces|
  {
    if |pieces| == 0 then "" else pieces[0] + Concat(pieces[1..])
  }

  function DigitChar(d: nat): (c: char)
    requires d < 10
    ensures '0' <= c <= '9'
  {
    (d + '0' as int) as char
  }

  predicate IsDigits(s: string) {
    forall k :: 0 <= k < |s| ==> '0' <= s[k] <= '9'
  }

  /** Decimal rendering of a natural number, as `${n}` produces it. */
  function NatToString(n: nat): (r: string)
    ensures |r| >= 1 && IsDigits(r)
    ensures r[0] == '0' ==> n == 0
    decreases n
  {
    if n < 10 then [DigitChar(n)] else NatToString(n / 10) + [DigitChar(n % 10)]
  }

  /** Reads a decimal digit string back into its value. */
  function ParseDecimal(s: string): nat
    requires IsDigits(s)
    decreases |s|
  {
    if |s| == 0 then 0
    else 10 * ParseDecimal(s[..|s| - 1]) + (s[|s| - 1] as int - '0' as int)
  }

  /** The rendering is faithful: reading it back gives the number. */
  lemma {:induction false} ParseNatToString(n: nat)
    ensures ParseDecimal(NatToString(n)) == n
    decreases n
  {
    var r := NatToString(n);
    if n >= 10 {
      ParseNatToString(n / 10);
      assert r[..|r| - 1] == NatToString(n / 10);
    }
  }

  /** The index of the first element satisfying `p`, or `|xs|` when none does. */
  function FirstWhere<T>(xs: seq<T>, p: T -> bool): (k: nat)
    ensures k <= |xs|
    ensures forall i :: 0 <= i < k ==> !p(xs[i])
    ensures k < |xs| ==> p(xs[k])
    decreases |xs|
  {
    if |xs| == 0 then 0 else if p(xs[0]) then 0 else 1 + FirstWhere(xs[1..], p)
  }

  /** `xs.map(f)`. */
  function Map<T, U>(xs: seq<T>, f: T -> U): (ys: seq<U>)
    ensures |ys| == |xs|
    ensures forall i :: 0 <= i < |xs| ==> ys[i] == f(xs[i])
  {
    seq(|xs|, i requires 0 <= i < |xs| => f(xs[i]))
  }


  /** `xs.filter(p)`: the elements satisfying `p`, in their original order. */
  function Filter<T>(xs: seq<T>, p: T -> bool): (ys: seq<T>)
    ensures |ys| <= |xs|
    ensures forall i :: 0 <= i < |ys| ==> p(ys[i])
    ensures |ys| > 0 <==> FirstWhere(xs, p) < |xs|
    ensures |ys| > 0 ==> ys[0] == xs[FirstWhere(xs, p)]
    decreases |xs|
  {
    if |xs| == 0 then []
    else (if p(xs[0]) then [xs[0]] else []) + Filter(xs[1..], p)
  }

  /** Filtering distributes over concatenation, so it keeps relative order. */
  lemma {:induction false} FilterAppend<T>(xs: seq<T>, ys: seq<T>, p: T -> bool)
    ensures Filter(xs + ys, p) == Filter(xs, p) + Filter(ys, p)
    decreases |xs|
  {
    if |xs| == 0 {
      assert xs + ys == ys;
    } else {
      var head := if p(xs[0]) then [xs[0]] else [];
      calc {
        Filter(xs + ys, p);
        { assert (xs + ys)[0] == xs[0] && (xs + ys)[1..] == xs[1..] + ys; }
        head + Filter(xs[1..] + ys, p);
        { FilterAppend(xs[1..], ys, p); }
        head + (Filter(xs[1..], p) + Filter(ys, p));
        (head + Filter(xs[1..], p)) + Filter(ys, p);
      }
    }
  }

  /** On one element, the filter keeps it exactly when it satisfies `p`. */
  lemma FilterSingle<T>(x: T, p: T -> bool)
    ensures Filter([x], p) == if p(x) then [x] else []
  {
    assert [x][1..] == [];
  }
}
